=== FILE: README.md ===
# CS2 profit ledger — a Dafny model

This project models the data logic of a small web app for tracking Counter-Strike 2 item trades, and proves properties of that model.

The browser client (`app.js`) keeps a ledger of purchases and sales. Every amount is stored in the user's base currency and converted with a per-user rate table for display. The client:

- adds, edits, deletes, imports and exports transactions;
- rebases the whole ledger when the user picks a new base currency;
- refreshes rates from a provider;
- computes the statistics cards and the table rows, with HTML escaping of user text.

The server (`server.js`) keeps user records keyed by Steam ID. It:

- checks Steam IDs;
- creates or refreshes a record at login;
- merges client data into the stored record;
- hides the transactions from `/auth/user`;
- joins the Steam inventory's assets with their descriptions;
- prices batches of market items.

Modules, one per component:

| module | what it holds |
|---|---|
| `Wrappers` | `Option` and `Result` |
| `Strings` | the JavaScript string operations used: `trim`, `split('/').pop()`, `replaceAll`, ASCII `toLowerCase`, `includes`, code-point order |
| `Currency` | rate tables and the three conversions |
| `Ledger` | transactions and the add, edit, delete, import and export updates |
| `Rebase` | the change of base currency |
| `Stats` | the statistics cards and table rows |
| `TableView` | the sorted and filtered table |
| `Html` | `escapeHtml` |
| `Json` | JSON values |
| `SteamId` | both Steam ID checks |
| `Users` | user records and the user routes |
| `Inventory` | the empty-body test and the asset join |
| `Prices` | the batch price loop |

Money is modelled as exact `real`. A rate table is a `map<string, real>`, and JavaScript truthiness of a rate (present and non-zero) is `Currency.Truthy`. The server's JSON records are maps from key to `Json.Value`, so the object spreads of the source are map unions.

The rebase is modelled as the code does it:

- The factor is `1/r[newBase]` when both `r[newBase]` and `r[oldBase]` are truthy, and 1 when either is falsy (`Rebase.Factor`).
- Every amount is multiplied by the factor, a `null` sell becoming 0 (`Rebase.Rescale`).
- The new base gets rate 1. Every other supported currency, the old base included, gets `(r[c] || 1) * factor`, and other keys are dropped (`Rebase.RebaseRates`).
- So the old base is left at `(r[oldBase] || 1) * factor`. From a table whose base has rate 1 and a truthy `r[newBase]`, that is `1/r[newBase]` (`Rebase.RebasedRateOf`, `Rebase.RebaseExample`). With a falsy `r[oldBase]` it is 1. With a falsy `r[newBase]` and a truthy `r[oldBase]` the old base keeps its rate.
- Because amounts and rates are both multiplied by the factor, from a table whose base has rate 1 an amount shown in any supported currency changes by the square of the factor (`Rebase.ShownAmountScalesBySquare`). Value is kept only when `r[newBase]` is one.
- The model proves this characterisation and does not claim value preservation.

## Model

| member | source | states |
|---|---|---|
| `Currency.ToBase` | app.js:145-151 | the base currency and a missing or zero rate pass the amount through |
| `Currency.FromBase` | app.js:153-157 | the base currency and a missing or zero rate pass the amount through |
| `Currency.FromBaseUndoesToBase` | app.js:145-157 | entering an amount in a currency and showing it in that currency gives it back, for every table |
| `Currency.ToBaseUndoesFromBase` | app.js:145-157 | showing a stored amount and entering it back stores the same amount |
| `Currency.FromBaseIsScaling` | app.js:153-157 | `fromBase` multiplies by the rate, counting the base and falsy rates as one |
| `Currency.FromBaseAdditive` | app.js:153-157 | conversion of a sum or difference is the sum or difference of conversions |
| `Currency.ConvertAmount` | app.js:133-143 | zero gives zero; from the base it multiplies by `rates[to]` whenever that key exists, even at 0; an unknown `from` falls back to the amount |
| `Currency.ConvertSelfIdentity` | app.js:133-143 | converting a currency to itself is the identity exactly when the amount is 0, the currency is not the base, the base has no rate, or its rate is 1 |
| `Currency.ConvertToBaseAgrees` | app.js:133-151 | on a normalized table, `convertAmount` into the base equals `toBase` |
| `Currency.ConvertFromBaseAgrees` | app.js:133-157 | on a normalized table, `convertAmount` out of the base equals `fromBase` exactly unless the target rate is present and 0 |
| `Currency.ConvertCrossIsPivot` | app.js:137-142 | between two non-base currencies with usable rates, `convertAmount` is `toBase` then `fromBase` |
| `Currency.DefaultRates` | app.js:124-131 | every supported currency, and nothing else, at rate 1 |
| `Currency.DefaultRatesConvertNothing` | app.js:124-131 | with the default table every conversion is the identity |
| `Currency.ShapeRates` | app.js:168-172 | the base at 1, every other supported currency at the provider's rate or 1 when absent; any rate other than 1 comes from the response |
| `Currency.FetchRates` | app.js:161-191 | the first provider's shaped answer when it answered, else the second's, else all ones; the result covers every supported currency and puts a supported base at 1 |
| `Currency.MergeRates` | app.js:390 | fetched keys win and every old key is kept |
| `Currency.Refresh` | app.js:454 | the refresh keeps base and display currency; every fetched rate replaces the stored one and every other stored rate is kept |
| `Currency.RefreshNormalizes` | app.js:387-391 | after any refresh a supported base has rate 1 |
| `Currency.RefreshUsesProviderRate` | app.js:168-172 | after a successful fetch, another currency converts at the provider's rate |
| `Ledger.Add` | app.js:474-493 | exactly one transaction is appended and the earlier ones are untouched; its amounts show back as entered; the sell is `null` exactly when the entered sell is 0 |
| `Ledger.Delete` | app.js:501-502 | the result holds exactly the transactions whose id differs; an absent id changes nothing |
| `Ledger.DeleteAppend` | app.js:502 | deleting distributes over any split, so the survivors keep their order |
| `Ledger.DeleteCount` | app.js:502 | the length drops by the number of transactions with that id, and none is left |
| `Ledger.DeleteUndoesAdd` | app.js:474-502 | adding under a fresh id and deleting that id restores the ledger |
| `Ledger.FindIndex` | app.js:507-508 | the index of the first transaction with the id, or none exactly when the id is absent |
| `Ledger.EditTransaction` | app.js:522-533 | the id is kept, amounts show back as entered, and the sell is `null` exactly when the sell field is empty |
| `Ledger.Edit` | app.js:506-533 | the edit listener's update, which is the intended effect of an edit submission: the first transaction with the id becomes the edited transaction and nothing else changes; ids, count and table are kept; an unknown id changes nothing |
| `Ledger.EditTwice` | app.js:506-533 | submitting the same edit twice is submitting it once |
| `Ledger.EditThenDelete` | app.js:501-533 | editing and then deleting a transaction equals deleting it at once |
| `Ledger.ZeroSellAddVersusEdit` | app.js:480-533 | a typed sell of 0 is stored as `null` by an add under a fresh id and as 0 by an edit of an existing transaction |
| `Ledger.FindIndexAppend` | app.js:507 | appending a transaction does not move the first one with an id already present |
| `Ledger.EditSubmission` | app.js:474-543 | an edit submission as wired runs the add listener too, so the ledger grows by one and the table is kept |
| `Ledger.EditSubmissionAddsCopy` | app.js:474-543 | an edit submission is the edit of the clicked transaction followed by an appended copy of the form under a fresh id, with a typed sell of 0 stored as `null` in the copy; it never equals the edit alone |
| `Ledger.Normalize` | app.js:570-578 | a missing or empty id gets the fresh one; a missing or empty type becomes `Case`; a missing date, name or notes becomes empty and a given one is kept; a missing buy becomes 0; the sell is kept as it is |
| `Ledger.Export` | app.js:548-554 | the document names the base and display currencies, the rate table, and every transaction in ledger order with its fields (the exported `username`, which import ignores, is not modelled) |
| `Ledger.NormalizeExported` | app.js:548-578 | an exported record imports back to itself exactly when its id and type are non-empty |
| `Ledger.Import` | app.js:565-585 | a file without a `transactions` array, or with a `null` record in it, is rejected and nothing changes; otherwise the ledger is replaced record by record, supported currencies adopted, rates merged, amounts not rescaled |
| `Ledger.FieldlessRecordImportsDefaults` | app.js:571-578 | a number or string record, which has no fields, imports as a transaction of defaults under the fresh id |
| `Ledger.ImportExportRoundTrip` | app.js:548-583 | exporting and importing restores the session when every transaction has an id and a type |
| `Ledger.ImportCanDenormalize` | app.js:579-581 | importing a new base without rescaling can leave the base's rate different from 1 |
| `Stats.Spent` | app.js:245-253 | the `forEach` sum of the buy amounts; its properties are the lemmas `Stats.SpentNonNegative`, `Stats.SumsAppend`, `Stats.AddIncreasesSpent` and `Rebase.RebaseScalesSpent` |
| `Stats.Sold` | app.js:249-253 | the sum of `sell || 0`, the amount received; the net is it minus the spent sum (`Stats.NetIsSoldMinusSpent`) |
| `Stats.Net` | app.js:245-253 | the `forEach` sum of `(sell || 0) - buy`; its properties are the lemmas `Stats.NetIsSoldMinusSpent`, `Stats.NoLossWithoutLosingRow`, `Stats.NetAtLeastMinusSpent`, `Stats.SumsAppend` and `Rebase.RebaseScalesNet` |
| `Stats.SpentNonNegative` | app.js:245-253 | the total spent is not negative when no buy amount is |
| `Stats.NoLossWithoutLosingRow` | app.js:246-253 | the net profit is not negative when no row loses money |
| `Stats.NetAtLeastMinusSpent` | app.js:247-255 | with non-negative sell amounts the net loss is at most what was spent |
| `Stats.NetIsSoldMinusSpent` | app.js:243-255 | the net is what was received minus what was spent |
| `Stats.SumsAppend` | app.js:247-255 | spent and net split over any split of the ledger |
| `Stats.Percent` | app.js:270 | with positive spending the percentage times spent is 100 times net, otherwise 0 |
| `Stats.Summarize` | app.js:243-272 | the cards are the base sums converted after summing; the percentage as above; positive iff the shown net is not negative; an empty ledger gives 0, 0, 0 |
| `Stats.ConvertAfterSumAgrees` | app.js:243-293 | converting the sum equals summing the per-row conversions |
| `Stats.SummaryExample` | app.js:243-272 | buys of 10 and 20 with one sale at 15 give spent 30, net -15, -50 percent |
| `Stats.LossAtMostAll` | app.js:243-270 | with non-negative amounts the loss never exceeds 100 percent |
| `Stats.AddIncreasesSpent` | app.js:474-493 | adding raises the total spent by the converted buy amount |
| `Stats.RowPercent` | app.js:293 | with a positive buy the row percentage times buy is 100 times the row's profit, otherwise 0 |
| `Stats.RowView` | app.js:287-301 | buy and sell cells convert back to their base amounts (sell 0 when unsold); the difference is sell minus buy shown; the percentage is the row percentage; cells are filled iff the sell is truthy |
| `Stats.SingleRowPercent` | app.js:270-293 | for one transaction the card percentage equals the row percentage |
| `Rebase.Factor` | app.js:423 | the factor is never 0 and is 1 unless both the new and old base rates are truthy |
| `Rebase.FactorInvertsRate` | app.js:423 | otherwise the factor inverts the new base's rate |
| `Rebase.Rescale` | app.js:424-428 | every field but the amounts is kept; buy times factor; the sell (0 when `null`) times factor, never `null` again |
| `Rebase.RebaseRates` | app.js:430-435 | the new base at 1, every other supported code at `(r[c] or 1)` times factor, all other keys dropped |
| `Rebase.RebaseTable` | app.js:430-438 | the new base becomes base at rate 1; an empty display currency becomes the new base |
| `Rebase.SaveSettings` | app.js:416-444 | keeping the base changes nothing; a new base is normalized, the display default applied, and the transaction count kept |
| `Rebase.SaveSettingsTable` | app.js:423-438 | a real base change rebases the table with the handler's factor |
| `Rebase.SaveSettingsTransactions` | app.js:423-428 | a real base change multiplies every amount by the handler's factor |
| `Rebase.FactorFits` | app.js:423 | with a truthy old-base rate the factor inverts a truthy new-base rate and is 1 otherwise |
| `Rebase.RebasedRateOf` | app.js:430-435 | on a table whose base has rate 1, the rebased rate of each other listed currency, with the old base counted at 1 |
| `Rebase.ShownAmountScalesBySquare` | app.js:416-444 | on a table whose base has rate 1, an amount shown in any supported currency after the rebase is the old shown value times the factor squared |
| `Rebase.FactorKeptIff` | app.js:423-435 | on a table whose base has rate 1 and whose new base has a truthy rate, a non-zero shown amount is kept iff the square of the new base's rate is 1 |
| `Rebase.ShownAmountKeptIff` | app.js:416-444 | on a table whose base has rate 1 and with a positive new-base rate, a non-zero shown amount is kept iff that rate is 1 |
| `Rebase.RebaseScalesSpent` | app.js:424-428 | the total spent is multiplied by the factor |
| `Rebase.RebaseScalesNet` | app.js:424-428 | the net profit is multiplied by the factor |
| `Rebase.PercentScaleFree` | app.js:270 | the percentage is unchanged when net and spent scale by the same positive factor |
| `Rebase.RebaseKeepsPercent` | app.js:270-428 | a positive-factor rebase keeps the profit percentage |
| `Rebase.RebaseKeepsSoldMarker` | app.js:299-301 | the 0 a rebase stores for a `null` sell still shows as unsold |
| `Rebase.RebaseExample` | app.js:416-444 | USD base with EUR at 2: moving to EUR halves a buy of 100, turns a `null` sell into 0, and rates become EUR 1, USD 0.5, AUD 0.75 |
| `Rebase.DegradedRebaseKeepsAmounts` | app.js:423-428 | with a falsy old-base rate, amounts are kept and a `null` sell becomes 0 |
| `Rebase.RescaleTwice` | app.js:424-428 | rescaling by inverse factors restores a transaction except for the sell becoming 0 |
| `Rebase.RescaleAllTwice` | app.js:424-428 | the same for the whole ledger, position by position |
| `Rebase.RebaseRatesTwice` | app.js:430-435 | a table of exactly the listed currencies, all truthy, whose base has rate 1, is restored by rebasing there with a first factor that inverts the new base's rate and back with its inverse |
| `Rebase.BackFactorInverts` | app.js:423-435 | from a table whose base has rate 1, after the first move the way back has the inverse factor |
| `Rebase.BackIsRebased` | app.js:416-444 | two saves with different bases are two rebases |
| `Rebase.BackFactor` | app.js:423 | from a table whose base has rate 1 and a truthy new-base rate, the two handlers' factors are inverses, and the first inverts the new base's rate |
| `Rebase.TransactionsBack` | app.js:424-428 | two rebases with inverse factors restore every amount |
| `Rebase.RatesBack` | app.js:430-435 | two rebases with inverse factors, the first inverting the new base's rate, restore a complete, all-truthy table whose base has rate 1 |
| `Rebase.RebaseThereAndBack` | app.js:416-444 | from a table whose base has rate 1 and a truthy new-base rate, moving the base away and back restores every amount (a `null` sell coming back as 0) and a complete table's rates |
| `Rebase.ThereAndBackDividesByBaseRate` | app.js:416-444 | from any table whose two base rates are truthy, moving the base away and back divides every amount by the old base's rate (a `null` sell coming back as 0), so amounts come back only when that rate is 1 |
| `Rebase.BackFactorIsReciprocal` | app.js:423-435 | for a supported old base with a truthy rate and a non-zero first factor, the way back's factor is the reciprocal of `r[oldBase] * factor`, the rate the first move leaves the old base at |
| `Rebase.RescaleAllDivides` | app.js:424-428 | rescaling by `f` and then by the reciprocal of `a * f` divides every amount by `a` |
| `TableView.Insert` | app.js:282 | inserting adds exactly one row |
| `TableView.SortByDate` | app.js:280-282 | the sorted rows are a permutation of the ledger |
| `TableView.SortIsSorted` | app.js:282 | the rows are in date order |
| `TableView.SortIsStable` | app.js:282 | the rows of any one date keep their ledger order |
| `TableView.InsertWithDate` | app.js:282 | an inserted row goes before every row of its own date |
| `TableView.Select` | app.js:283-286 | a row is shown iff it is in the ledger and matches |
| `TableView.SelectAppend` | app.js:283-286 | filtering distributes over any split, so the shown rows keep their order and repetitions |
| `TableView.SelectKeepsSorted` | app.js:281-286 | filtering a sorted list keeps it sorted |
| `TableView.View` | app.js:277-286 | the table is in date order and holds exactly the ledger's rows that match the lowered search; for every date it holds all the matching rows of that date, repeats included, in ledger order |
| `TableView.WithDateSelect` | app.js:280-286 | filtering and picking out the rows of one date commute |
| `TableView.EmptySearchShowsAll` | app.js:277-286 | an empty search shows the whole ledger in date order |
| `TableView.SearchIgnoresCase` | app.js:277-285 | typing the search in capitals shows the same rows |
| `Html.EscapeHtml` | app.js:315-322 | a missing or empty input gives the empty string; escaping never shortens the text |
| `Html.EscapeOne` | app.js:316-321 | one character becomes its entity |
| `Html.EscapeIsEntityMap` | app.js:315-322 | because `&` is replaced first, the chain equals the character-wise entity mapping |
| `Html.EscapedHasNoSpecial` | app.js:315-322 | the output holds no `<`, `>`, `"` or `'` |
| `Html.EscapeKeepsPlain` | app.js:315-322 | text without the five special characters is kept as it is |
| `SteamId.LoginSteamId` | server.js:106-112 | login accepts iff the last `/`-segment is `7656` and 13 digits; the accepted id ends the identifier |
| `SteamId.LoginAcceptsProfileIdentifier` | server.js:105-112 | any OpenID profile identifier of a Steam ID64 is accepted with that id |
| `SteamId.ValidateSteamId` | server.js:231-248 | a missing or empty input gives `null`; otherwise the last `/`-segment of the trimmed input, which is the whole trimmed input when it has no `/` |
| `SteamId.ValidateKeepsLoginId` | server.js:106-112 | an id accepted at login passes the validator unchanged |
| `SteamId.ValidateReadsProfileUrl` | server.js:231-248 | the validator recovers the ID64 from a profile URL |
| `SteamId.ValidateAcceptsShortId` | server.js:240-247 | the format test does not change the result: a short id passes the validator but not login |
| `Users.NewUser` | server.js:119-130 | a new user has base and display `USD`, rates USD, AUD and EUR at 1, no transactions, and the profile's name or `User_<id>` |
| `Users.RefreshProfile` | server.js:131-135 | only `username` and `avatar` change, each to the profile's value when it supplies one; otherwise the stored value is kept |
| `Users.SaveUser` | server.js:86-95 | the record is the data with `steamId` and `updatedAt` forced; other users are untouched |
| `Users.SignIn` | server.js:117-137 | a new account gets the defaults, the profile's name or `User_<id>`, and the profile's avatar; an existing record keeps every field but name, avatar, id and timestamp, and keeps its name and avatar when the profile has none |
| `Users.Login` | server.js:102-138 | login fails iff the identifier's last segment is not a Steam ID64; otherwise it is the sign-in of that id |
| `Users.RefreshKeepsCurrent` | server.js:131-135 | refreshing with the profile a record already shows changes nothing |
| `Users.SaveKeepsStamped` | server.js:86-95 | saving a record that already carries its id and timestamp stores it as it is |
| `Users.SignInKeepsCurrent` | server.js:117-137 | signing in a record that already shows the profile and moment changes nothing |
| `Users.SignInTwice` | server.js:117-137 | signing in twice with the same profile at the same moment is signing in once |
| `Users.LoginTwice` | server.js:102-138 | the same for the whole login callback |
| `Users.GetUserData` | server.js:193-204 | 401 without a session, 404 for an unknown user, else the stored record |
| `Users.PostUserData` | server.js:206-228 | 401 without a session, 404 for an unknown user; else each field from the client when present, else from the store, with `steamId` forced to the session's |
| `Users.PostCannotTakeOverAnotherUser` | server.js:218-226 | whatever the client sends, only the session's record changes and it keeps the session's id |
| `Users.PostWhatWasReadKeepsRecord` | server.js:193-226 | posting back what was read changes only the timestamp |
| `Users.AuthUser` | server.js:182-190 | authenticated iff signed in; the user shown has every field but `transactions` |
| `Users.AuthUserDropsOnlyTransactions` | server.js:185 | adding the transactions back restores the record |
| `Inventory.EmptyBody` | server.js:322-323 | a body of white space alone counts as empty |
| `Inventory.DescriptionMap` | server.js:436-439 | descriptions keyed by class id, the last of each class winning |
| `Inventory.MakeItem` | server.js:444-454 | ids, `type` and `market_hash_name` copied; name is `market_name` else `name`; `tradable`/`marketable` iff the field is the number 1; the icon URL is the CDN prefix followed by `icon_url`, or `undefined` when it is missing |
| `Inventory.Described` | server.js:441-443 | the assets kept are exactly those with a description |
| `Inventory.DescribedAppend` | server.js:441-443 | keeping the described assets distributes over any split, so order and repetitions are kept |
| `Inventory.Join` | server.js:441-457 | at most one item per asset, exactly one each when every asset is described |
| `Inventory.JoinIsDescribedAssets` | server.js:441-457 | the items are the described assets' items in asset order |
| `Inventory.JoinUsesLastDescription` | server.js:436-457 | every asset of a class gets its item from that class's last description |
| `Inventory.DescribedAll` | server.js:441-443 | when every asset is described, all of them are kept |
| `Inventory.Process` | server.js:428-457 | no assets or no descriptions give no items; otherwise the items are the join of the assets with the description map; the total is the item count |
| `Inventory.ProcessIsDescribedItems` | server.js:428-457 | a parsed inventory answers with one item per described asset, in asset order, from its class's last description, and counts them |
| `Inventory.Respond` | server.js:322-336 | an empty-looking body gives no items and total 0; any other body is processed |
| `Inventory.PaddedNullIsEmpty` | server.js:322-323 | `null` surrounded by white space counts as empty |
| `Inventory.ContentIsNotEmpty` | server.js:322-323 | a body with content does not count as empty |
| `Prices.EntryOf` | server.js:530-547 | success iff the answer was OK and successful; every failure has price 0 and no formatted text; an exception keeps its message; the formatted text is `lowest_price`, or `$0.00` when it is missing or empty |
| `Prices.PricesOf` | server.js:518-551 | one entry per requested name, from that name's last request; failures priced 0 |
| `Prices.Limited` | server.js:518 | the first 50 names, or all of them when there are fewer: a prefix of the list of that length |
| `Prices.BatchPrices` | server.js:511-559 | 401 without a session, 400 for a non-array or empty list; otherwise the loop's result is the entry map of the first 50 names |
| `Prices.BatchCoversFirstNames` | server.js:518-551 | every name among the first 50 gets an entry and no other name does |
| `Strings.ReplaceAll` | app.js:316-321 | every output character comes from the replacement or is a kept input character other than the pattern; without the pattern the text is kept; a non-empty replacement never shortens |
| `Strings.ReplaceAllAppend` | app.js:316-321 | replacing in a concatenation is replacing in each part |
| `Strings.LowerString` | app.js:277-285 | the lowered text has the same length and lowers each character |
| `Strings.ContainsAt` | app.js:283-285 | `includes` holds iff the pattern occurs at some position |
| `Strings.Trim` | server.js:235 | no white space at either end, only characters of the input, and a text without padding is kept |
| `Strings.LastSegment` | server.js:106 | the longest `/`-free suffix |
| `Strings.TrimPadded` | server.js:322 | trimming removes exactly the white space padding |

## Left out

- DOM rendering and event wiring: the modals, selects and the rates list. Of the listener wiring only its effect on the data is modelled (`Ledger.EditSubmission`, see Findings); a second edit click before submitting, which registers a second edit listener, is not modelled.
- Network and I/O: the rate-provider requests, the users file, the Steam inventory requests and their context-id retry loop, and the HTTP status handling around the inventory parse. Provider and market answers are parameters (`primary`/`secondary` rate maps, the `fetch` oracle of `Prices.BatchPrices`, the parsed assets and descriptions of `Inventory.Respond`).
- The single-item price route: it performs one request and a `parseFloat` of the price text, which is left out.
- Formatting: `formatMoney`, `formatDate` and `toFixed` depend on `Intl`, `Date` and floating point. Money is exact `real`. The price text parse (`parseFloat(...) || 0`) is folded into the oracle's answer.
- Randomness and crypto: `uid`, `sha256Hex` and `randomSalt`. Fresh ids are parameters (`freshId`, `freshIds`), and clock readings are a `now` parameter.
- Auth, session, passport, CORS and express configuration. A session is an optional Steam ID or record.
- Item-name typeahead, debounce and its `localeCompare` ranking.
- `localeCompare` of the date sort is modelled as code-point order, which agrees on the ISO `yyyy-mm-dd` dates the form produces. `toLowerCase` is modelled on ASCII letters only.
- A missing `date` in a stored transaction is not modelled: stored fields are strings, so the comparator's `undefined` argument cannot arise.
- JSON parsing and stringification. A client `userData` that is not an object is not modelled: `Users.PostUserData` takes an object, with a missing `userData` being the empty object.
- An import record's field that holds a non-string or non-number JSON value is not modelled (fields are optional strings and reals).
- Ids are strings throughout. An imported numeric `id` survives `t.id || uid()` in the source and then never equals the string `data-id` that delete and edit compare with, so such a record cannot be deleted or edited; that case is not modelled.
- Rebase.ShownAmountKeptIff: stated for a positive new-base rate, where the rate itself must be 1; the general statement (the rate's square is 1) is `Rebase.FactorKeptIff` on the table.
- Rebase.RebaseThereAndBack: stated for a table whose base has rate 1. From any other table with truthy base rates the amounts come back divided by the old base's rate (`Rebase.ThereAndBackDividesByBaseRate`), so they are not restored. The rates are restored only for a table that holds exactly the supported currencies, all with truthy rates. Other tables lose or gain keys in the first rebase.
- Rebase.ShownAmountScalesBySquare: stated for a table whose base has rate 1. Import (`Ledger.ImportCanDenormalize`) and the rate editor can leave other tables, and for those the shown amounts after a rebase are not characterised.
- Rebase.FactorKeptIff: needs, as well, a truthy new-base rate; with a falsy one the factor is 1 (`Rebase.Factor`), and the shown amounts are not characterised there.

## Findings

| source | as written | input that shows it | evidently intended | confidence | as-written member | corrected member |
|---|---|---|---|---|---|---|
| app.js:474-543 | the add listener of the form is never removed; the edit click only adds a one-shot edit listener, so an edit submission runs both | click Edit on any transaction and submit the form: the ledger gains a copy of the form under a fresh id besides the edited transaction | the comment at app.js:542 says the edit listener temporarily overrides the default one, so a submission should only update the clicked transaction and keep the count | high; not executed | `Ledger.EditSubmission`, with `Ledger.EditSubmissionAddsCopy` | `Ledger.Edit` |

=== FILE: currency.dfy ===
/** Currency codes, rate tables and the three conversion functions of the
    client (`toBase`, `fromBase`, `convertAmount`), together with the rate
    tables it builds: the all-ones default, the table shaped from a rate
    provider's response, and the merge done on a refresh.

    A rate table maps a currency code to "units of that currency per one unit
    of the base currency". JavaScript reads a missing key as `undefined`; both
    `undefined` and `0` are falsy, which is what `Truthy` captures. */
module Currency {
  import opened Wrappers

  type Code = string
  type Rates = map<Code, real>

  /** The supported currencies, in the order of the `CURRENCIES` list. */
  const Currencies: seq<Code> := ["AUD", "USD", "EUR"]

  /** The base (storage) currency, the preferred display currency (empty when
      unset) and the rate table of one user. */
  datatype Table = Table(base: Code, display: Code, rates: Rates)

  /** JavaScript truthiness of `rates[c]`: present and not zero. */
  predicate Truthy(rates: Rates, c: Code) {
    c in rates && rates[c] != 0.0
  }

  /** `rates[c] || 1`. */
  function RateOr1(rates: Rates, c: Code): real {
    if Truthy(rates, c) then rates[c] else 1.0
  }

  /** A table is normalized when its base has rate one, as `getDefaultRates`
      and every fetched table leave it. */
  predicate Normalized(t: Table) {
    t.base in t.rates && t.rates[t.base] == 1.0
  }

  // ---------------------------------------------------------------------
  // Conversion

  /** `toBase`: an amount entered in `c`, expressed in the base currency.
      The base currency and a missing or zero rate pass the amount through. */
  function ToBase(amount: real, c: Code, t: Table): (r: real)
    ensures c == t.base || !Truthy(t.rates, c) ==> r == amount
  {
    if c == t.base then amount
    else if !Truthy(t.rates, c) then amount
    else amount / t.rates[c]
  }

  /** `fromBase`: a base amount expressed in `c`, with the same pass-through
      fallback as `ToBase`. */
  function FromBase(amount: real, c: Code, t: Table): (r: real)
    ensures c == t.base || !Truthy(t.rates, c) ==> r == amount
  {
    if c == t.base then amount
    else if !Truthy(t.rates, c) then amount
    else amount * t.rates[c]
  }

  /** Entering an amount in `c` and showing it in `c` gives it back, for every
      currency and every table. */
  lemma FromBaseUndoesToBase(amount: real, c: Code, t: Table)
    ensures FromBase(ToBase(amount, c, t), c, t) == amount
  {
  }

  /** And the other way round: showing a stored amount in `c` and entering it
      back in `c` stores the same amount. */
  lemma ToBaseUndoesFromBase(amount: real, c: Code, t: Table)
    ensures ToBase(FromBase(amount, c, t), c, t) == amount
  {
  }

  /** `fromBase` multiplies by the currency's rate, counting the base currency
      and a missing or zero rate as one. */
  lemma FromBaseIsScaling(amount: real, c: Code, t: Table)
    ensures FromBase(amount, c, t) == amount * (if c == t.base then 1.0 else RateOr1(t.rates, c))
  {
  }

  /** `fromBase` is linear for a fixed currency, so converting a sum equals
      summing the converted parts. */
  lemma FromBaseAdditive(a: real, b: real, c: Code, t: Table)
    ensures FromBase(a + b, c, t) == FromBase(a, c, t) + FromBase(b, c, t)
    ensures FromBase(a - b, c, t) == FromBase(a, c, t) - FromBase(b, c, t)
  {
  }

  /** `convertAmount(amount, from, to, rates, base)`: zero stays zero; from the
      base it multiplies by `rates[to]` whenever that key exists, even when it
      is zero; to the base it divides by a non-zero `rates[from]`; otherwise it
      pivots through the base when both keys exist and `rates[from]` is
      non-zero, and falls back to the amount itself. */
  function ConvertAmount(amount: real, from: Code, to: Code, rates: Rates, base: Code): (r: real)
    ensures amount == 0.0 ==> r == 0.0
    ensures from == base && to in rates ==> r == amount * rates[to]
    ensures from !in rates && (from != base || to !in rates) ==> r == amount
  {
    if amount == 0.0 then 0.0
    else if from == base && to in rates then amount * rates[to]
    else if to == base && from in rates && rates[from] != 0.0 then amount / rates[from]
    else if from in rates && to in rates && rates[from] != 0.0 then amount / rates[from] * rates[to]
    else amount
  }

  /** Converting a currency to itself is the identity exactly when the amount
      is zero, or the currency is not the base, or the base has no rate, or its
      rate is one. */
  lemma ConvertSelfIdentity(amount: real, c: Code, rates: Rates, base: Code)
    ensures ConvertAmount(amount, c, c, rates, base) == amount
        <==> amount == 0.0 || c != base || c !in rates || rates[c] == 1.0
  {
    if amount != 0.0 && c == base && c in rates && rates[c] != 1.0 {
      assert amount * rates[c] != amount * 1.0;
    }
  }

  /** On a normalized table, converting into the base with `convertAmount`
      agrees with `toBase`. */
  lemma ConvertToBaseAgrees(amount: real, from: Code, t: Table)
    requires Normalized(t)
    ensures ConvertAmount(amount, from, t.base, t.rates, t.base) == ToBase(amount, from, t)
  {
  }

  /** On a normalized table, converting out of the base with `convertAmount`
      agrees with `fromBase` except when the target's rate is present and
      zero: there `convertAmount` gives 0 while `fromBase` passes through. */
  lemma ConvertFromBaseAgrees(amount: real, to: Code, t: Table)
    requires Normalized(t)
    ensures ConvertAmount(amount, t.base, to, t.rates, t.base) == FromBase(amount, to, t)
        <==> amount == 0.0 || to == t.base || to !in t.rates || t.rates[to] != 0.0
  {
  }

  /** Between two non-base currencies with usable rates, `convertAmount` is
      `toBase` followed by `fromBase`. */
  lemma ConvertCrossIsPivot(amount: real, from: Code, to: Code, t: Table)
    requires from != t.base && to != t.base
    requires Truthy(t.rates, from) && Truthy(t.rates, to)
    ensures ConvertAmount(amount, from, to, t.rates, t.base) == FromBase(ToBase(amount, from, t), to, t)
  {
  }

  // ---------------------------------------------------------------------
  // Rate tables

  /** `getDefaultRates(base)`: every supported currency at rate one. */
  function DefaultRates(base: Code): (r: Rates)
    ensures r.Keys == set c | c in Currencies
    ensures forall c :: c in r ==> r[c] == 1.0
  {
    map c | c in Currencies :: 1.0
  }

  /** With the default table every conversion, in either direction, leaves the
      amount as it is. */
  lemma DefaultRatesConvertNothing(amount: real, c: Code, base: Code, display: Code)
    ensures ToBase(amount, c, Table(base, display, DefaultRates(base))) == amount
    ensures FromBase(amount, c, Table(base, display, DefaultRates(base))) == amount
  {
  }

  /** The result built from one provider's `rates` object: the base at one,
      every other supported currency at the provider's rate, or one when the
      provider has none for it (`data.rates[c] ?? 1`, which keeps a zero). */
  function ShapeRates(base: Code, response: Rates): (r: Rates)
    ensures r.Keys == {base} + set c | c in Currencies
    ensures r[base] == 1.0
    ensures forall c :: c in Currencies && c != base ==> r[c] == (if c in response then response[c] else 1.0)
    ensures forall c :: c in r && r[c] != 1.0 ==> c in response && r[c] == response[c]
  {
    map c | c in {base} + (set c | c in Currencies) ::
      if c == base then 1.0 else if c in response then response[c] else 1.0
  }

  /** `fetchRates`: the first provider that answered, else the second, else
      the default table. `None` stands for a provider whose request failed. */
  function FetchRates(base: Code, primary: Option<Rates>, secondary: Option<Rates>): (r: Rates)
    ensures forall c :: c in Currencies ==> c in r
    ensures base in Currencies ==> base in r && r[base] == 1.0
    ensures primary.None? && secondary.None? ==> forall c :: c in r ==> r[c] == 1.0
    ensures primary.Some? ==> r == ShapeRates(base, primary.value)
    ensures primary.None? && secondary.Some? ==> r == ShapeRates(base, secondary.value)
  {
    match primary
    case Some(p) => ShapeRates(base, p)
    case None =>
      match secondary
      case Some(s) => ShapeRates(base, s)
      case None => DefaultRates(base)
  }

  /** `{ ...rates, ...fetched }`: fetched keys win, every old key is kept. */
  function MergeRates(current: Rates, fetched: Rates): (r: Rates)
    ensures r.Keys == current.Keys + fetched.Keys
    ensures forall c :: c in fetched ==> r[c] == fetched[c]
    ensures forall c :: c in current && c !in fetched ==> r[c] == current[c]
  {
    current + fetched
  }

  /** A rate refresh: the fetched table is merged over the current one. */
  function Refresh(t: Table, primary: Option<Rates>, secondary: Option<Rates>): (r: Table)
    ensures r.base == t.base && r.display == t.display
    ensures t.rates.Keys <= r.rates.Keys
    ensures forall c :: c in Currencies ==> c in r.rates
    ensures var f := FetchRates(t.base, primary, secondary);
      && (forall c :: c in f ==> c in r.rates && r.rates[c] == f[c])
      && (forall c :: c in t.rates && c !in f ==> c in r.rates && r.rates[c] == t.rates[c])
  {
    t.(rates := MergeRates(t.rates, FetchRates(t.base, primary, secondary)))
  }

  /** After any refresh, whichever provider answered, a table whose base is a
      supported currency is normalized. */
  lemma RefreshNormalizes(t: Table, primary: Option<Rates>, secondary: Option<Rates>)
    requires t.base in Currencies
    ensures Normalized(Refresh(t, primary, secondary))
  {
    var f := FetchRates(t.base, primary, secondary);
    assert t.base in f && f[t.base] == 1.0;
  }

  /** After a successful fetch, every other supported currency converts at the
      provider's rate (or one, when the provider has none for it). */
  lemma RefreshUsesProviderRate(t: Table, response: Rates, c: Code, amount: real)
    requires c in Currencies && c != t.base
    requires c in response && response[c] != 0.0
    ensures FromBase(amount, c, Refresh(t, Some(response), None)) == amount * response[c]
  {
    var f := ShapeRates(t.base, response);
    assert f[c] == response[c];
  }
}

=== FILE: html.dfy ===
/** `escapeHtml`, which the table uses for every user-typed field it shows. */
module Html {
  import opened Wrappers
  import opened Strings

  /** The entity each character becomes; every other character is kept. */
  function Entity(c: char): string {
    if c == '&' then "&amp;"
    else if c == '<' then "&lt;"
    else if c == '>' then "&gt;"
    else if c == '"' then "&quot;"
    else if c == '\'' then "&#039;"
    else [c]
  }

  /** The character-wise entity mapping: the reference meaning of escaping. */
  function EntityMap(s: string): string {
    if |s| == 0 then [] else Entity(s[0]) + EntityMap(s[1..])
  }

  predicate Special(c: char) {
    c == '<' || c == '>' || c == '"' || c == '\''
  }

  /** The five chained `replaceAll` calls, `&` first, on `s || ''`. */
  function EscapeHtml(s: Option<string>): (r: string)
    ensures s.None? || s == Some("") ==> r == ""
    ensures s.Some? && s.value != "" ==> |r| >= |s.value|
  {
    var text := s.GetOr("");
    var a := ReplaceAll(text, '&', "&amp;");
    var b := ReplaceAll(a, '<', "&lt;");
    var c := ReplaceAll(b, '>', "&gt;");
    var d := ReplaceAll(c, '"', "&quot;");
    ReplaceAll(d, '\'', "&#039;")
  }

  /** Replacing in a one-character string. */
  lemma ReplaceSingle(c: char, x: char, rep: string)
    ensures ReplaceAll([c], x, rep) == if c == x then rep else [c]
  {
    assert [c][1..] == [];
  }

  /** Escaping one character yields its entity: the entities the later calls
      produce hold none of the characters those calls still look for. */
  lemma EscapeOne(c: char)
    ensures EscapeHtml(Some([c])) == Entity(c)
  {
    ReplaceSingle(c, '&', "&amp;");
    var a := ReplaceAll([c], '&', "&amp;");
    if c == '&' {
      assert a == "&amp;" && '<' !in a && '>' !in a && '"' !in a && '\'' !in a;
    } else {
      ReplaceSingle(c, '<', "&lt;");
      var b := ReplaceAll([c], '<', "&lt;");
      if c == '<' {
        assert b == "&lt;" && '>' !in b && '"' !in b && '\'' !in b;
      } else {
        ReplaceSingle(c, '>', "&gt;");
        var d := ReplaceAll([c], '>', "&gt;");
        if c == '>' {
          assert d == "&gt;" && '"' !in d && '\'' !in d;
        } else {
          ReplaceSingle(c, '"', "&quot;");
          ReplaceSingle(c, '\'', "&#039;");
          if c == '"' {
            assert '\'' !in "&quot;";
          }
        }
      }
    }
  }

  /** Because `&` is replaced before the entities that contain it are
      introduced, the chain equals the character-wise mapping: no entity is
      escaped twice. */
  lemma {:induction false} EscapeIsEntityMap(s: string)
    ensures EscapeHtml(Some(s)) == EntityMap(s)
  {
    if |s| > 0 {
      var head, tail := [s[0]], s[1..];
      assert s == head + tail;
      var a1, a2 := ReplaceAll(head, '&', "&amp;"), ReplaceAll(tail, '&', "&amp;");
      ReplaceAllAppend(head, tail, '&', "&amp;");
      var b1, b2 := ReplaceAll(a1, '<', "&lt;"), ReplaceAll(a2, '<', "&lt;");
      ReplaceAllAppend(a1, a2, '<', "&lt;");
      var c1, c2 := ReplaceAll(b1, '>', "&gt;"), ReplaceAll(b2, '>', "&gt;");
      ReplaceAllAppend(b1, b2, '>', "&gt;");
      var d1, d2 := ReplaceAll(c1, '"', "&quot;"), ReplaceAll(c2, '"', "&quot;");
      ReplaceAllAppend(c1, c2, '"', "&quot;");
      ReplaceAllAppend(d1, d2, '\'', "&#039;");
      EscapeOne(s[0]);
      EscapeIsEntityMap(tail);
    }
  }

  lemma {:induction false} EntityMapHasNoSpecial(s: string)
    ensures forall i :: 0 <= i < |EntityMap(s)| ==> !Special(EntityMap(s)[i])
  {
    if |s| > 0 {
      EntityMapHasNoSpecial(s[1..]);
      var e := Entity(s[0]);
      assert forall i :: 0 <= i < |e| ==> !Special(e[i]);
    }
  }

  lemma {:induction false} EntityMapKeepsPlain(s: string)
    requires forall i :: 0 <= i < |s| ==> !Special(s[i]) && s[i] != '&'
    ensures EntityMap(s) == s
  {
    if |s| > 0 {
      EntityMapKeepsPlain(s[1..]);
      assert s == [s[0]] + s[1..];
    }
  }

  /** The escaped text holds none of `<`, `>`, `"` and `'`, so it cannot open
      a tag or close an attribute. */
  lemma EscapedHasNoSpecial(s: Option<string>)
    ensures forall i :: 0 <= i < |EscapeHtml(s)| ==> !Special(EscapeHtml(s)[i])
  {
    EscapeIsEntityMap(s.GetOr(""));
    EntityMapHasNoSpecial(s.GetOr(""));
  }

  /** Text without `&` and the four special characters is shown unchanged. */
  lemma EscapeKeepsPlain(s: string)
    requires forall i :: 0 <= i < |s| ==> !Special(s[i]) && s[i] != '&'
    ensures EscapeHtml(Some(s)) == s
  {
    EscapeIsEntityMap(s);
    EntityMapKeepsPlain(s);
  }
}

=== FILE: inventory.dfy ===
/** The inventory route's data handling: the empty-body test on Steam's
    response text and the join of assets with their descriptions. The
    HTTP requests, status handling and context retries are not modelled. */
module Inventory {
  import opened Wrappers
  import opened Strings
  import opened Json

  /** One entry of `data.assets`. */
  datatype Asset = Asset(assetid: string, classid: string, instanceid: string)

  /** One entry of `data.descriptions`; a `None` field is absent. The two
      flags are kept as JSON values because only the number 1 counts. */
  datatype Description = Description(
    classid: string,
    marketName: Option<string>,
    name: Option<string>,
    iconUrl: Option<string>,
    tradable: Value,
    marketable: Value,
    kind: Option<string>,
    marketHashName: Option<string>)

  /** One item of the route's answer. */
  datatype Item = Item(
    assetid: string,
    classid: string,
    instanceid: string,
    name: Option<string>,
    iconUrl: string,
    tradable: bool,
    marketable: bool,
    kind: Option<string>,
    marketHashName: Option<string>)

  datatype Answer = Answer(items: seq<Item>, total: nat)

  const IconPrefix := "https://steamcommunity-a.akamaihd.net/economy/image/"

  /** The bodies Steam sends for an empty or hidden inventory. */
  predicate EmptyBody(text: string)
    ensures (forall i :: 0 <= i < |text| ==> IsSpace(text[i])) ==> EmptyBody(text)
  {
    var t := Trim(text);
    t == "null" || t == "" || t == "{}" || t == "[]"
  }

  /** `descriptionsMap`: descriptions keyed by class id, a later description
      replacing an earlier one of the same class. */
  function DescriptionMap(ds: seq<Description>): (m: map<string, Description>)
    ensures m.Keys == set i | 0 <= i < |ds| :: ds[i].classid
    ensures forall i :: 0 <= i < |ds| && (forall j :: i < j < |ds| ==> ds[j].classid != ds[i].classid) ==>
      m[ds[i].classid] == ds[i]
  {
    if |ds| == 0 then map[]
    else
      var last := ds[|ds| - 1];
      var m := DescriptionMap(ds[..|ds| - 1])[last.classid := last];
      assert forall i :: 0 <= i < |ds| - 1 ==> ds[..|ds| - 1][i] == ds[i];
      m
  }

  /** `description.market_name || description.name`: the market name when it
      is a non-empty string. */
  function DisplayName(d: Description): Option<string> {
    if d.marketName.Some? && d.marketName.value != "" then d.marketName else d.name
  }

  /** The item made from an asset and its description. An absent icon path is
      interpolated as the text `undefined`. */
  function MakeItem(a: Asset, d: Description): (it: Item)
    ensures it.assetid == a.assetid && it.classid == a.classid && it.instanceid == a.instanceid
    ensures it.tradable <==> d.tradable == Num(1.0)
    ensures it.marketable <==> d.marketable == Num(1.0)
    ensures it.name == (if d.marketName.Some? && d.marketName.value != "" then d.marketName else d.name)
    ensures |it.iconUrl| >= |IconPrefix| && it.iconUrl[..|IconPrefix|] == IconPrefix
    ensures it.iconUrl[|IconPrefix|..] == (if d.iconUrl.Some? then d.iconUrl.value else "undefined")
    ensures it.kind == d.kind && it.marketHashName == d.marketHashName
  {
    Item(a.assetid, a.classid, a.instanceid, DisplayName(d),
      IconPrefix + d.iconUrl.GetOr("undefined"),
      d.tradable == Num(1.0), d.marketable == Num(1.0), d.kind, d.marketHashName)
  }

  /** The assets that have a description, in asset order. */
  function Described(assets: seq<Asset>, m: map<string, Description>): (r: seq<Asset>)
    ensures |r| <= |assets|
    ensures forall a :: a in r <==> a in assets && a.classid in m
  {
    if |assets| == 0 then []
    else
      assert assets == [assets[0]] + assets[1..];
      (if assets[0].classid in m then [assets[0]] else []) + Described(assets[1..], m)
  }

  /** `data.assets.forEach(...)`: one item per asset whose class is described,
      in asset order. */
  function Join(assets: seq<Asset>, m: map<string, Description>): (r: seq<Item>)
    ensures |r| <= |assets|
    ensures (forall i :: 0 <= i < |assets| ==> assets[i].classid in m) ==> |r| == |assets|
  {
    if |assets| == 0 then []
    else
      var a := assets[0];
      (if a.classid in m then [MakeItem(a, m[a.classid])] else []) + Join(assets[1..], m)
  }

  /** `filter` keeps order and multiplicity: the described assets of a
      concatenation are those of each part. */
  lemma {:induction false} DescribedAppend(a: seq<Asset>, b: seq<Asset>, m: map<string, Description>)
    ensures Described(a + b, m) == Described(a, m) + Described(b, m)
  {
    if |a| == 0 {
      assert a + b == b;
    } else {
      assert (a + b)[0] == a[0];
      assert (a + b)[1..] == a[1..] + b;
      DescribedAppend(a[1..], b, m);
    }
  }

  /** The join is the item of each described asset, position by position. */
  lemma {:induction false} JoinIsDescribedAssets(assets: seq<Asset>, m: map<string, Description>)
    ensures var d := Described(assets, m); var r := Join(assets, m);
      |r| == |d| && forall i :: 0 <= i < |r| ==> d[i].classid in m && r[i] == MakeItem(d[i], m[d[i].classid])
  {
    if |assets| > 0 {
      JoinIsDescribedAssets(assets[1..], m);
    }
  }

  /** The answer built from a parsed body: no assets gives no items; assets
      without `descriptions` give no items either. */
  function Process(assets: Option<seq<Asset>>, descriptions: Option<seq<Description>>): (r: Answer)
    ensures r.total == |r.items|
    ensures assets.None? || descriptions.None? ==> r.items == []
    ensures assets.Some? ==> |r.items| <= |assets.value|
    ensures assets.Some? && descriptions.Some? ==> r.items == Join(assets.value, DescriptionMap(descriptions.value))
  {
    if assets.None? || |assets.value| == 0 then Answer([], 0)
    else if descriptions.None? then Answer([], 0)
    else
      var items := Join(assets.value, DescriptionMap(descriptions.value));
      Answer(items, |items|)
  }

  /** The route: an empty-looking body answers with no items before any
      parsing; otherwise the parsed body is processed. */
  function Respond(text: string, assets: Option<seq<Asset>>, descriptions: Option<seq<Description>>): (r: Answer)
    ensures EmptyBody(text) ==> r == Answer([], 0)
    ensures !EmptyBody(text) ==> r == Process(assets, descriptions)
    ensures r.total == |r.items|
  {
    if EmptyBody(text) then Answer([], 0) else Process(assets, descriptions)
  }

  /** A parsed inventory answers with one item per described asset, made
      from the last description of its class, and counts them. */
  lemma ProcessIsDescribedItems(assets: seq<Asset>, ds: seq<Description>)
    ensures var r := Process(Some(assets), Some(ds)); var m := DescriptionMap(ds);
      var d := Described(assets, m);
      && r.total == |d|
      && forall i :: 0 <= i < |d| ==> d[i].classid in m && r.items[i] == MakeItem(d[i], m[d[i].classid])
  {
    JoinIsDescribedAssets(assets, DescriptionMap(ds));
  }

  /** White space around the body does not matter. */
  lemma PaddedNullIsEmpty(pre: string, post: string)
    requires forall i :: 0 <= i < |pre| ==> IsSpace(pre[i])
    requires forall i :: 0 <= i < |post| ==> IsSpace(post[i])
    ensures EmptyBody(pre + "null" + post)
  {
    assert "null"[0] == 'n' && "null"[3] == 'l';
    TrimPadded(pre, "null", post);
  }

  /** A body with content is parsed rather than taken as empty. */
  lemma ContentIsNotEmpty()
    ensures !EmptyBody("{\"assets\":[]}")
  {
    var body := "{\"assets\":[]}";
    assert !IsSpace(body[0]) && !IsSpace(body[|body| - 1]);
    assert |Trim(body)| == 13;
  }

  /** Every asset with a matching description yields exactly one item, the
      last description of its class deciding the item's fields. */
  lemma JoinUsesLastDescription(assets: seq<Asset>, ds: seq<Description>, k: nat)
    requires k < |ds| && forall j :: k < j < |ds| ==> ds[j].classid != ds[k].classid
    requires forall i :: 0 <= i < |assets| ==> assets[i].classid == ds[k].classid
    ensures var r := Join(assets, DescriptionMap(ds));
      |r| == |assets| && forall i :: 0 <= i < |r| ==> r[i] == MakeItem(assets[i], ds[k])
  {
    var m := DescriptionMap(ds);
    JoinIsDescribedAssets(assets, m);
    DescribedAll(assets, m);
  }

  lemma {:induction false} DescribedAll(assets: seq<Asset>, m: map<string, Description>)
    requires forall i :: 0 <= i < |assets| ==> assets[i].classid in m
    ensures Described(assets, m) == assets
  {
    if |assets| > 0 {
      DescribedAll(assets[1..], m);
    }
  }
}

=== FILE: json.dfy ===
/** The JSON values the server stores and sends. Objects are maps from key to
    value; JSON's key order is not modelled. */
module Json {
  datatype Value =
    | Null
    | Bool(b: bool)
    | Num(n: real)
    | Str(s: string)
    | Arr(items: seq<Value>)
    | Obj(fields: map<string, Value>)

  /** A JSON object, such as a stored user record. */
  type Object = map<string, Value>
}

=== FILE: ledger.dfy ===
/** The client's ledger: transactions stored in the base currency and the data
    updates of the add, edit, delete, import and export handlers. */
module Ledger {
  import opened Wrappers
  import opened Strings
  import opened Currency

  /** One stored transaction. `buy` and `sell` are base-currency amounts;
      `sell == None` is the stored `null` of an unsold item. `kind` is the
      source's `type` field. */
  datatype Transaction = Transaction(
    id: string,
    date: string,
    itemName: string,
    kind: string,
    notes: string,
    buy: real,
    sell: Option<real>)

  /** The ledger part of the signed-in user: the rate table and the
      transactions in insertion order. */
  datatype State = State(table: Table, transactions: seq<Transaction>)

  /** `t.sellPriceBase || 0`. */
  function SellOrZero(t: Transaction): real {
    match t.sell
    case Some(v) => v
    case None => 0.0
  }

  /** The transaction form as the handlers read it. `buy` is the number typed
      in the buy field (0 when empty); `sell` is `None` when the sell field's
      text is empty and otherwise the number typed; `currency` is the selected
      entry currency, empty when none is selected. */
  datatype Entry = Entry(
    date: string,
    itemName: string,
    kind: string,
    notes: string,
    buy: real,
    sell: Option<real>,
    currency: Code)

  /** `$('#tx-currency').value || base`. */
  function EntryCurrency(e: Entry, t: Table): Code {
    if e.currency == "" then t.base else e.currency
  }

  /** `Number($('#tx-sell').value || 0)`. */
  function EnteredSell(e: Entry): real {
    e.sell.GetOr(0.0)
  }

  predicate HasId(txs: seq<Transaction>, id: string) {
    exists i :: 0 <= i < |txs| && txs[i].id == id
  }

  // ---------------------------------------------------------------------
  // Add

  /** The submit handler of the transaction form: appends one transaction
      whose amounts are the entered ones converted to the base currency, and
      stores an entered sell price of 0 (or none) as `null`. */
  function Add(s: State, e: Entry, freshId: string): (r: State)
    ensures r.table == s.table
    ensures |r.transactions| == |s.transactions| + 1
    ensures r.transactions[..|s.transactions|] == s.transactions
    ensures var t := r.transactions[|s.transactions|];
      && t.id == freshId && t.date == e.date && t.kind == e.kind
      && t.itemName == Trim(e.itemName) && t.notes == Trim(e.notes)
      && FromBase(t.buy, EntryCurrency(e, s.table), s.table) == e.buy
      && (t.sell.None? <==> EnteredSell(e) == 0.0)
      && (t.sell.Some? ==> FromBase(t.sell.value, EntryCurrency(e, s.table), s.table) == e.sell.value)
  {
    var c := EntryCurrency(e, s.table);
    var sell := EnteredSell(e);
    var t := Transaction(freshId, e.date, Trim(e.itemName), e.kind, Trim(e.notes),
                         ToBase(e.buy, c, s.table),
                         if sell != 0.0 then Some(ToBase(sell, c, s.table)) else None);
    FromBaseUndoesToBase(e.buy, c, s.table);
    FromBaseUndoesToBase(sell, c, s.table);
    s.(transactions := s.transactions + [t])
  }

  // ---------------------------------------------------------------------
  // Delete

  /** `transactions.filter((t) => t.id !== id)`. */
  function Delete(txs: seq<Transaction>, id: string): (r: seq<Transaction>)
    ensures |r| <= |txs|
    ensures forall t :: t in r <==> t in txs && t.id != id
    ensures !HasId(txs, id) ==> r == txs
  {
    if |txs| == 0 then []
    else
      var rest := Delete(txs[1..], id);
      assert forall t :: t in txs <==> t == txs[0] || t in txs[1..];
      assert HasId(txs[1..], id) ==> HasId(txs, id) by {
        if HasId(txs[1..], id) {
          var i :| 0 <= i < |txs[1..]| && txs[1..][i].id == id;
          assert txs[i + 1].id == id;
        }
      }
      if txs[0].id == id then rest else [txs[0]] + rest
  }

  /** Deleting keeps the survivors in their order: it distributes over any
      split of the ledger. */
  lemma {:induction false} DeleteAppend(a: seq<Transaction>, b: seq<Transaction>, id: string)
    ensures Delete(a + b, id) == Delete(a, id) + Delete(b, id)
  {
    if |a| == 0 {
      assert a + b == b;
    } else {
      assert (a + b)[1..] == a[1..] + b;
      DeleteAppend(a[1..], b, id);
    }
  }

  /** The number of transactions carrying `id`. */
  function CountId(txs: seq<Transaction>, id: string): nat {
    if |txs| == 0 then 0 else (if txs[0].id == id then 1 else 0) + CountId(txs[1..], id)
  }

  /** Deleting removes exactly the transactions with that id. */
  lemma {:induction false} DeleteCount(txs: seq<Transaction>, id: string)
    ensures |Delete(txs, id)| == |txs| - CountId(txs, id)
    ensures CountId(Delete(txs, id), id) == 0
  {
    if |txs| > 0 {
      DeleteCount(txs[1..], id);
    }
  }

  /** Adding a transaction and deleting it by its (fresh) id restores the
      ledger. */
  lemma DeleteUndoesAdd(s: State, e: Entry, freshId: string)
    requires !HasId(s.transactions, freshId)
    ensures Delete(Add(s, e, freshId).transactions, freshId) == s.transactions
  {
    var t := Add(s, e, freshId).transactions[|s.transactions|];
    assert Add(s, e, freshId).transactions == s.transactions + [t];
    DeleteAppend(s.transactions, [t], freshId);
  }

  // ---------------------------------------------------------------------
  // Edit

  /** Index of the first transaction with `id` (`Array.prototype.find`). */
  function FindIndex(txs: seq<Transaction>, id: string): (r: Option<nat>)
    ensures r.None? <==> !HasId(txs, id)
    ensures r.Some? ==> r.value < |txs| && txs[r.value].id == id
                        && forall j :: 0 <= j < r.value ==> txs[j].id != id
  {
    if |txs| == 0 then None
    else if txs[0].id == id then Some(0)
    else
      match FindIndex(txs[1..], id)
      case None => None
      case Some(k) => Some(k + 1)
  }

  /** The update the edit form's submit handler makes to the transaction it
      was opened on: every field but the id is replaced, and the sell price is
      `null` only when the sell field's text is empty (a typed 0 stays 0). */
  function EditTransaction(t: Transaction, e: Entry, table: Table): (r: Transaction)
    ensures r.id == t.id
    ensures r.date == e.date && r.kind == e.kind
    ensures r.itemName == Trim(e.itemName) && r.notes == Trim(e.notes)
    ensures FromBase(r.buy, EntryCurrency(e, table), table) == e.buy
    ensures r.sell.None? <==> e.sell.None?
    ensures r.sell.Some? ==> FromBase(r.sell.value, EntryCurrency(e, table), table) == e.sell.value
  {
    var c := EntryCurrency(e, table);
    FromBaseUndoesToBase(e.buy, c, table);
    FromBaseUndoesToBase(EnteredSell(e), c, table);
    Transaction(t.id, e.date, Trim(e.itemName), e.kind, Trim(e.notes),
                ToBase(e.buy, c, table),
                if e.sell.Some? then Some(ToBase(EnteredSell(e), c, table)) else None)
  }

  /** Edit by id, as the edit listener does it and as an edit submission is
      meant to act: the first transaction with that id is updated in place;
      an unknown id leaves the ledger as it was. */
  function Edit(s: State, id: string, e: Entry): (r: State)
    ensures r.table == s.table
    ensures |r.transactions| == |s.transactions|
    ensures !HasId(s.transactions, id) ==> r == s
    ensures forall i :: 0 <= i < |s.transactions| ==> r.transactions[i].id == s.transactions[i].id
    ensures forall i :: 0 <= i < |s.transactions| && r.transactions[i] != s.transactions[i] ==>
              FindIndex(s.transactions, id) == Some(i)
    ensures FindIndex(s.transactions, id).Some? ==>
              var k := FindIndex(s.transactions, id).value;
              r.transactions[k] == EditTransaction(s.transactions[k], e, s.table)
  {
    match FindIndex(s.transactions, id)
    case None => s
    case Some(k) =>
      s.(transactions := s.transactions[k := EditTransaction(s.transactions[k], e, s.table)])
  }

  /** Replacing a transaction by one with the same id is invisible to a
      delete of that id. */
  lemma DeleteIgnoresReplaced(a: seq<Transaction>, k: nat, t: Transaction, id: string)
    requires k < |a| && a[k].id == id && t.id == id
    ensures Delete(a[k := t], id) == Delete(a, id)
  {
    var b := a[k := t];
    assert a == a[..k] + [a[k]] + a[k + 1..];
    assert b == a[..k] + [t] + a[k + 1..];
    DeleteAppend(a[..k] + [a[k]], a[k + 1..], id);
    DeleteAppend(a[..k], [a[k]], id);
    DeleteAppend(a[..k] + [t], a[k + 1..], id);
    DeleteAppend(a[..k], [t], id);
  }

  /** Editing a transaction and then deleting it leaves what deleting it
      straight away leaves. */
  lemma EditThenDelete(s: State, id: string, e: Entry)
    ensures Delete(Edit(s, id, e).transactions, id) == Delete(s.transactions, id)
  {
    match FindIndex(s.transactions, id)
    case None =>
    case Some(k) =>
      DeleteIgnoresReplaced(s.transactions, k, EditTransaction(s.transactions[k], e, s.table), id);
  }

  /** Editing the same transaction twice with the same form is editing it
      once: the edit keeps the id, so the second edit finds the same
      position and writes the same fields. */
  lemma EditTwice(s: State, id: string, e: Entry)
    ensures Edit(Edit(s, id, e), id, e) == Edit(s, id, e)
  {
  }

  /** Appending a transaction does not move the first one carrying an id
      that was already present. */
  lemma FindIndexAppend(txs: seq<Transaction>, t: Transaction, id: string)
    requires HasId(txs, id)
    ensures FindIndex(txs + [t], id) == FindIndex(txs, id)
  {
    assert forall j :: 0 <= j < |txs| ==> (txs + [t])[j] == txs[j];
  }

  /** An edit submission as the page wires it. The add listener registered
      on the form at start-up is never removed, so on an edit submission it
      runs first and appends the form's values under a fresh id; only then
      does the one-shot edit listener update the transaction that was
      clicked. */
  function EditSubmission(s: State, id: string, e: Entry, freshId: string): (r: State)
    ensures r.table == s.table
    ensures |r.transactions| == |s.transactions| + 1
  {
    Edit(Add(s, e, freshId), id, e)
  }

  /** An edit submission is the intended edit plus an appended copy of the
      form's values, so it never equals the edit alone; a typed sell of 0 is
      stored as `null` in the copy. */
  lemma EditSubmissionAddsCopy(s: State, id: string, e: Entry, freshId: string)
    requires HasId(s.transactions, id)
    ensures var copy := Add(s, e, freshId).transactions[|s.transactions|];
      && EditSubmission(s, id, e, freshId).transactions == Edit(s, id, e).transactions + [copy]
      && copy.id == freshId
      && (e.sell == Some(0.0) ==> copy.sell == None)
    ensures EditSubmission(s, id, e, freshId) != Edit(s, id, e)
  {
    var added := Add(s, e, freshId);
    var copy := added.transactions[|s.transactions|];
    assert added.transactions == s.transactions + [copy];
    FindIndexAppend(s.transactions, copy, id);
    var k := FindIndex(s.transactions, id).value;
    var edited := EditTransaction(s.transactions[k], e, s.table);
    assert added.transactions[k := edited] == s.transactions[k := edited] + [copy];
  }

  /** The add and edit handlers read a typed sell price of 0 differently:
      adding under a fresh id stores `null`, editing an existing transaction
      stores 0. */
  lemma ZeroSellAddVersusEdit(s: State, e: Entry, freshId: string, id: string)
    requires e.sell == Some(0.0) && !HasId(s.transactions, freshId) && HasId(s.transactions, id)
    ensures Add(s, e, freshId).transactions[|s.transactions|].sell == None
    ensures Edit(s, id, e).transactions[FindIndex(s.transactions, id).value].sell == Some(0.0)
  {
  }

  // ---------------------------------------------------------------------
  // Export and import

  /** One transaction record of an imported file, as JSON gives it: `None`
      for a missing or `null` field. */
  datatype RawTransaction = RawTransaction(
    id: Option<string>,
    date: Option<string>,
    itemName: Option<string>,
    kind: Option<string>,
    notes: Option<string>,
    buy: Option<real>,
    sell: Option<real>)

  /** The exported (and importable) document. `transactions == None` stands
      for a file whose `transactions` is not an array, and a `None` record for
      a `null` element of that array. A number or string element has no
      fields, so it reads as a record with every field missing. */
  datatype Document = Document(
    baseCurrency: Option<Code>,
    displayCurrency: Option<Code>,
    rates: Option<Rates>,
    transactions: Option<seq<Option<RawTransaction>>>)

  /** Some element of the array is `null`: reading its `id` throws. */
  predicate HasNullRecord(raws: seq<Option<RawTransaction>>) {
    exists i :: 0 <= i < |raws| && raws[i].None?
  }

  datatype ImportError = InvalidFile

  /** `s || ''` for a string field. */
  function StringOr(f: Option<string>, default: string): string {
    if f.Some? && f.value != "" then f.value else default
  }

  /** The normalisation of one imported record: a missing or empty id gets the
      fresh one, `type` defaults to `Case`, a missing buy price to 0, and the
      sell price is `null` exactly when the record has none. */
  function Normalize(raw: RawTransaction, freshId: string): (r: Transaction)
    ensures r.id == (if raw.id.Some? && raw.id.value != "" then raw.id.value else freshId)
    ensures r.kind == (if raw.kind.Some? && raw.kind.value != "" then raw.kind.value else "Case")
    ensures r.date == (if raw.date.Some? then raw.date.value else "")
    ensures r.itemName == (if raw.itemName.Some? then raw.itemName.value else "")
    ensures r.notes == (if raw.notes.Some? then raw.notes.value else "")
    ensures r.buy == raw.buy.GetOr(0.0)
    ensures r.sell == raw.sell
  {
    Transaction(StringOr(raw.id, freshId), StringOr(raw.date, ""), StringOr(raw.itemName, ""),
                StringOr(raw.kind, "Case"), StringOr(raw.notes, ""), raw.buy.GetOr(0.0), raw.sell)
  }

  /** A stored transaction as the export writes it. */
  function ToRaw(t: Transaction): RawTransaction {
    RawTransaction(Some(t.id), Some(t.date), Some(t.itemName), Some(t.kind), Some(t.notes),
                   Some(t.buy), t.sell)
  }

  /** Importing an exported record gives the transaction back exactly when it
      has a non-empty id and a non-empty type (the fresh id is never empty). */
  lemma NormalizeExported(t: Transaction, freshId: string)
    requires freshId != ""
    ensures Normalize(ToRaw(t), freshId) == t <==> t.id != "" && t.kind != ""
  {
  }

  /** The export handler's document: the currencies, the rate table and every
      transaction, in ledger order, with all its fields written out. The
      exported `username` is not read back by the import and is not
      modelled. */
  function Export(s: State): (r: Document)
    ensures r.baseCurrency == Some(s.table.base) && r.displayCurrency == Some(s.table.display)
    ensures r.rates == Some(s.table.rates)
    ensures r.transactions.Some? && |r.transactions.value| == |s.transactions|
    ensures forall i :: 0 <= i < |s.transactions| ==>
      r.transactions.value[i].Some? &&
      var raw := r.transactions.value[i].value; var t := s.transactions[i];
      raw.id == Some(t.id) && raw.date == Some(t.date) && raw.itemName == Some(t.itemName)
      && raw.kind == Some(t.kind) && raw.notes == Some(t.notes)
      && raw.buy == Some(t.buy) && raw.sell == t.sell
  {
    Document(Some(s.table.base), Some(s.table.display), Some(s.table.rates),
             Some(seq(|s.transactions|, i requires 0 <= i < |s.transactions| => Some(ToRaw(s.transactions[i])))))
  }

  /** `CURRENCIES.some((c) => c.code === code)` for a present, non-empty code. */
  predicate Adoptable(code: Option<Code>) {
    code.Some? && code.value != "" && code.value in Currencies
  }

  /** The import handler: a file without a `transactions` array is rejected,
      and so is one with a `null` record, whose `t.id` throws inside the
      `map` so that the whole import fails and nothing changes; otherwise the whole ledger is replaced by the normalised records (the
      i-th gets `freshIds(i)` when it lacks an id), amounts are taken as they
      are, base and display currency are adopted only when supported, and the
      file's rates are merged over the current ones. */
  function Import(s: State, doc: Document, freshIds: nat -> string): (r: Result<State, ImportError>)
    ensures r.Err? <==> doc.transactions.None? || HasNullRecord(doc.transactions.value)
    ensures r.Ok? ==>
      && |r.value.transactions| == |doc.transactions.value|
      && (forall i :: 0 <= i < |r.value.transactions| ==>
            doc.transactions.value[i].Some? &&
            r.value.transactions[i] == Normalize(doc.transactions.value[i].value, freshIds(i)))
      && r.value.table.base == (if Adoptable(doc.baseCurrency) then doc.baseCurrency.value else s.table.base)
      && r.value.table.display == (if Adoptable(doc.displayCurrency) then doc.displayCurrency.value else s.table.display)
      && r.value.table.rates == (if doc.rates.Some? then MergeRates(s.table.rates, doc.rates.value) else s.table.rates)
  {
    match doc.transactions
    case None => Err(InvalidFile)
    case Some(raws) =>
      if HasNullRecord(raws) then Err(InvalidFile)
      else
        var txs := seq(|raws|, i requires 0 <= i < |raws| && raws[i].Some? =>
          Normalize(raws[i].value, freshIds(i)));
        var base := if Adoptable(doc.baseCurrency) then doc.baseCurrency.value else s.table.base;
        var display := if Adoptable(doc.displayCurrency) then doc.displayCurrency.value else s.table.display;
        var rates := if doc.rates.Some? then MergeRates(s.table.rates, doc.rates.value) else s.table.rates;
        Ok(State(Table(base, display, rates), txs))
  }

  /** A number or string element of the array has no fields, so it imports
      as a transaction of defaults under the fresh id. */
  lemma FieldlessRecordImportsDefaults(freshId: string)
    requires freshId != ""
    ensures Normalize(RawTransaction(None, None, None, None, None, None, None), freshId)
      == Transaction(freshId, "", "", "Case", "", 0.0, None)
  {
  }

  /** Exporting and importing the file back into the same session restores the
      session exactly, provided every transaction has an id and a type. */
  lemma ImportExportRoundTrip(s: State, freshIds: nat -> string)
    requires forall i :: 0 <= i < |s.transactions| ==> s.transactions[i].id != "" && s.transactions[i].kind != ""
    ensures Import(s, Export(s), freshIds) == Ok(s)
  {
    var r := Import(s, Export(s), freshIds).value;
    assert r.transactions == s.transactions;
    assert MergeRates(s.table.rates, s.table.rates) == s.table.rates;
    assert r.table == s.table;
  }

  /** Import adopts a new base without rescaling anything, so the imported
      table need not be normalized: a USD ledger with EUR at 0.9 that imports
      a file naming EUR as base ends with `rates[EUR] == 0.9`. */
  lemma ImportCanDenormalize()
    ensures var s := State(Table("USD", "USD", map["USD" := 1.0, "EUR" := 0.9]), []);
      var r := Import(s, Document(Some("EUR"), None, None, Some([])), _ => "x");
      r.Ok? && r.value.table.base == "EUR" && !Normalized(r.value.table)
  {
  }
}

=== FILE: prices.dfy ===
/** The bookkeeping of the batch price route `POST /api/prices`. Each
    market request is an oracle: `fetch(i)` is what the i-th request
    produced, with the price text already parsed to a number. */
module Prices {
  import opened Wrappers

  /** What one market request produced: an exception, a non-OK status, or a
      JSON answer with its `success` flag, its `lowest_price` text and the
      parsed price (`parseFloat(...) || 0`). */
  datatype Outcome =
    | Threw(message: string)
    | NotOk
    | Answered(success: bool, lowestPrice: Option<string>, price: real)

  /** One entry of the `prices` object; `None` fields are absent. */
  datatype Entry = Entry(success: bool, price: real, formatted: Option<string>, error: Option<string>)

  datatype BatchError = NotAuthenticated | InvalidRequest

  function Status(e: BatchError): int {
    match e
    case NotAuthenticated => 401
    case InvalidRequest => 400
  }

  /** At most this many names are priced per request. */
  const Limit: nat := 50

  /** The entry recorded for one outcome: every failure is
      `{success: false, price: 0}`, and a thrown error also keeps its message. */
  function EntryOf(o: Outcome): (r: Entry)
    ensures r.success <==> o.Answered? && o.success
    ensures !r.success ==> r.price == 0.0 && r.formatted.None?
    ensures r.success ==> r.price == o.price && r.formatted.Some?
    ensures r.error.Some? <==> o.Threw?
    ensures o.Threw? ==> r.error == Some(o.message)
    ensures r.success && o.lowestPrice.Some? && o.lowestPrice.value != "" ==> r.formatted == o.lowestPrice
    ensures r.success && (o.lowestPrice.None? || o.lowestPrice.value == "") ==> r.formatted == Some("$0.00")
  {
    match o
    case Threw(m) => Entry(false, 0.0, None, Some(m))
    case NotOk => Entry(false, 0.0, None, None)
    case Answered(ok, lowest, price) =>
      if ok then
        Entry(true, price, Some(if lowest.Some? && lowest.value != "" then lowest.value else "$0.00"), None)
      else Entry(false, 0.0, None, None)
  }

  /** Position `i` holds the last request for its name. */
  predicate LastRequest(names: seq<string>, i: int)
    requires 0 <= i < |names|
  {
    forall j :: i < j < |names| ==> names[j] != names[i]
  }

  /** The reference result for the names requested so far: each name's entry
      from its last request. */
  function PricesOf(names: seq<string>, fetch: nat -> Outcome): (m: map<string, Entry>)
    ensures m.Keys == set i | 0 <= i < |names| :: names[i]
    ensures forall k :: k in m && !m[k].success ==> m[k].price == 0.0
    ensures forall i {:trigger LastRequest(names, i)} :: 0 <= i < |names| && LastRequest(names, i) ==> m[names[i]] == EntryOf(fetch(i))
  {
    if |names| == 0 then map[]
    else
      var n := |names| - 1;
      var prev := PricesOf(names[..n], fetch);
      PricesOfStep(names, fetch, prev);
      prev[names[n] := EntryOf(fetch(n))]
  }

  /** One more request: the entry for the last name is written over the
      entries of the names before it. */
  lemma PricesOfStep(names: seq<string>, fetch: nat -> Outcome, prev: map<string, Entry>)
    requires |names| > 0
    requires prev.Keys == set i | 0 <= i < |names| - 1 :: names[i]
    requires forall k :: k in prev && !prev[k].success ==> prev[k].price == 0.0
    requires forall i {:trigger LastRequest(names[..|names| - 1], i)} :: 0 <= i < |names| - 1 && LastRequest(names[..|names| - 1], i) ==>
      prev[names[i]] == EntryOf(fetch(i))
    ensures var m := prev[names[|names| - 1] := EntryOf(fetch(|names| - 1))];
      && m.Keys == (set i | 0 <= i < |names| :: names[i])
      && (forall k :: k in m && !m[k].success ==> m[k].price == 0.0)
      && (forall i {:trigger LastRequest(names, i)} :: 0 <= i < |names| && LastRequest(names, i) ==> m[names[i]] == EntryOf(fetch(i)))
  {
    var n := |names| - 1;
    var m := prev[names[n] := EntryOf(fetch(n))];
    assert forall i :: 0 <= i < n ==> names[..n][i] == names[i];
    assert m.Keys == set i | 0 <= i < |names| :: names[i];
    forall i | 0 <= i < n && LastRequest(names, i)
      ensures m[names[i]] == EntryOf(fetch(i))
    {
      assert names[n] != names[i];
      assert LastRequest(names[..n], i);
    }
  }

  /** `marketHashNames.slice(0, 50)`. */
  function Limited(names: seq<string>): (r: seq<string>)
    ensures |r| <= Limit && r <= names
    ensures |names| <= Limit ==> r == names
    ensures |r| == if |names| <= Limit then |names| else Limit
  {
    if |names| <= Limit then names else names[..Limit]
  }

  /** The route: reject an unauthenticated caller and a missing or empty name
      list, then request the first `Limit` names in order and record an
      entry for each. `names == None` stands for a body whose
      `marketHashNames` is not an array. */
  method BatchPrices(authenticated: bool, names: Option<seq<string>>, fetch: nat -> Outcome)
    returns (r: Result<map<string, Entry>, BatchError>)
    ensures !authenticated <==> r == Err(NotAuthenticated)
    ensures authenticated && (names.None? || |names.value| == 0) <==> r == Err(InvalidRequest)
    ensures r.Ok? ==> r.value == PricesOf(Limited(names.value), fetch)
    ensures r.Ok? ==> forall k :: k in r.value && !r.value[k].success ==> r.value[k].price == 0.0
  {
    if !authenticated {
      return Err(NotAuthenticated);
    }
    if names.None? || |names.value| == 0 {
      return Err(InvalidRequest);
    }
    var limited := Limited(names.value);
    var prices: map<string, Entry> := map[];
    var i := 0;
    while i < |limited|
      invariant 0 <= i <= |limited|
      invariant prices == PricesOf(limited[..i], fetch)
    {
      assert limited[..i + 1][..i] == limited[..i];
      prices := prices[limited[i] := EntryOf(fetch(i))];
      i := i + 1;
    }
    assert limited[..i] == limited;
    return Ok(prices);
  }

  /** Every processed name gets an entry and nothing else does: the answer's
      names are exactly the first `Limit` names requested. */
  lemma BatchCoversFirstNames(names: seq<string>, fetch: nat -> Outcome, i: nat)
    requires i < |names| && i < Limit
    ensures names[i] in PricesOf(Limited(names), fetch)
    ensures forall k :: k in PricesOf(Limited(names), fetch) ==> exists j :: 0 <= j < |names| && j < Limit && names[j] == k
  {
    var l := Limited(names);
    assert l[i] == names[i];
    forall k | k in PricesOf(l, fetch)
      ensures exists j :: 0 <= j < |names| && j < Limit && names[j] == k
    {
      var j :| 0 <= j < |l| && l[j] == k;
      assert names[j] == k;
    }
  }
}

=== FILE: rebase.dfy ===
/** The settings handler's change of base currency. The model follows the
    handler as written: the factor is `1 / r[newBase]` when both the new and
    the old base have a truthy rate and 1 otherwise; every amount is
    multiplied by it (a `null` sell price becomes 0 on the way); the new base
    gets rate one and every other supported currency `(r[c] || 1) * factor`.
    Because amounts and rates are both multiplied by the factor, a displayed
    value changes by the square of the factor. */
module Rebase {
  import opened Wrappers
  import opened Currency
  import opened Ledger
  import opened Stats

  /** `(r[newBase] && r[oldBase]) ? 1 / r[newBase] : 1`. */
  function Factor(rates: Rates, oldBase: Code, newBase: Code): (f: real)
    ensures f != 0.0
    ensures !Truthy(rates, newBase) || !Truthy(rates, oldBase) ==> f == 1.0
  {
    if Truthy(rates, newBase) && Truthy(rates, oldBase) then 1.0 / rates[newBase] else 1.0
  }

  /** When it is not the fallback, the factor is the number of old-base units
      one new-base unit is worth: it times the new base's rate is one. */
  lemma FactorInvertsRate(rates: Rates, oldBase: Code, newBase: Code)
    requires Truthy(rates, newBase) && Truthy(rates, oldBase)
    ensures Factor(rates, oldBase, newBase) * rates[newBase] == 1.0
  {
  }

  /** One transaction with its amounts multiplied by `f`; the sell price is
      always a number afterwards (`(t.sellPriceBase || 0) * factor`). */
  function Rescale(t: Transaction, f: real): (r: Transaction)
    ensures r.id == t.id && r.date == t.date && r.itemName == t.itemName
    ensures r.kind == t.kind && r.notes == t.notes
    ensures r.buy == t.buy * f
    ensures r.sell.Some? && r.sell.value == SellOrZero(t) * f
  {
    t.(buy := t.buy * f, sell := Some(SellOrZero(t) * f))
  }

  function RescaleAll(txs: seq<Transaction>, f: real): (r: seq<Transaction>)
    ensures |r| == |txs|
    ensures forall i :: 0 <= i < |txs| ==> r[i] == Rescale(txs[i], f)
  {
    seq(|txs|, i requires 0 <= i < |txs| => Rescale(txs[i], f))
  }

  /** The rebased table: the new base at one, every other code of `codes`
      (the supported currencies, in the handler) at `(r[c] || 1) * factor`,
      and nothing else. */
  function RebaseRates(rates: Rates, newBase: Code, f: real, codes: seq<Code>): (r: Rates)
    ensures r.Keys == {newBase} + set c | c in codes
    ensures r[newBase] == 1.0
    ensures forall c :: c in codes && c != newBase ==> r[c] == RateOr1(rates, c) * f
  {
    map c | c in {newBase} + (set c | c in codes) ::
      if c == newBase then 1.0 else RateOr1(rates, c) * f
  }

  /** The table moved to `newBase` with factor `f`: the rates of `codes`
      are rebased and the display currency defaults to the new base when
      unset. */
  function RebaseTable(t: Table, newBase: Code, f: real, codes: seq<Code>): (r: Table)
    ensures r.base == newBase && Normalized(r)
    ensures r.display == (if t.display == "" then newBase else t.display)
    ensures r.rates == RebaseRates(t.rates, newBase, f, codes)
  {
    Table(newBase, if t.display == "" then newBase else t.display, RebaseRates(t.rates, newBase, f, codes))
  }

  /** The ledger moved to `newBase` with every amount multiplied by `f`. */
  function Rebased(s: State, newBase: Code, f: real): State {
    State(RebaseTable(s.table, newBase, f, Currencies), RescaleAll(s.transactions, f))
  }

  /** The save-settings handler with `newBase` selected: keeping the base
      changes nothing; any other choice makes `newBase` the base at rate one,
      keeps every transaction's place, and gives an unset display currency
      the new base. */
  function SaveSettings(s: State, newBase: Code): (r: State)
    ensures newBase == s.table.base ==> r == s
    ensures newBase != s.table.base ==>
      && r.table.base == newBase && Normalized(r.table)
      && r.table.display == (if s.table.display == "" then newBase else s.table.display)
      && |r.transactions| == |s.transactions|
  {
    if newBase == s.table.base then s
    else Rebased(s, newBase, Factor(s.table.rates, s.table.base, newBase))
  }

  /** Any other choice of base rebases the table by the handler's factor... */
  lemma SaveSettingsTable(s: State, newBase: Code, f: real)
    requires newBase != s.table.base
    requires f == Factor(s.table.rates, s.table.base, newBase)
    ensures SaveSettings(s, newBase).table == RebaseTable(s.table, newBase, f, Currencies)
  {
  }

  /** ...and multiplies every amount by it. */
  lemma SaveSettingsTransactions(s: State, newBase: Code, f: real)
    requires newBase != s.table.base
    requires f == Factor(s.table.rates, s.table.base, newBase)
    ensures SaveSettings(s, newBase).transactions == RescaleAll(s.transactions, f)
  {
  }

  /** The handler's factor inverts the new base's rate, or is one when it
      cannot. */
  lemma FactorFits(rates: Rates, oldBase: Code, newBase: Code, f: real)
    requires Truthy(rates, oldBase) && f == Factor(rates, oldBase, newBase)
    ensures f != 0.0
    ensures Truthy(rates, newBase) ==> f * rates[newBase] == 1.0
    ensures !Truthy(rates, newBase) ==> f == 1.0
  {
    if Truthy(rates, newBase) {
      FactorInvertsRate(rates, oldBase, newBase);
    }
  }

  // Small facts of real arithmetic, kept apart so that each proof stays cheap.

  lemma CancelInverse(a: real, f: real, g: real)
    requires f * g == 1.0
    ensures a * f * g == a
  {
    assert a * f * g == a * (f * g);
  }

  lemma SquareOfInverse(a: real, f: real, q: real)
    requires f * q == 1.0
    ensures a * q * f * f == a * f
  {
    assert a * q * f * f == a * (f * q) * f;
  }

  lemma Reorder(lhs: real, before: real, a: real, f: real, p: real)
    requires lhs == a * f * (p * f) && before == a * p
    ensures lhs == before * f * f
  {
  }

  lemma SquareKeepsIff(b: real, f: real, q: real)
    requires f * q == 1.0 && b != 0.0
    ensures b * f * f == b <==> q * q == 1.0
  {
    assert (f * f) * (q * q) == (f * q) * (f * q);
    if b * f * f == b {
      assert b * (f * f - 1.0) == 0.0;
    }
    if q * q == 1.0 {
      assert f * f == 1.0;
    }
  }

  lemma NonZeroProduct(a: real, b: real)
    requires a != 0.0 && b != 0.0
    ensures a * b != 0.0
  {
  }

  lemma InverseUnique(f: real, g: real, q: real)
    requires f * g == 1.0 && f * q == 1.0
    ensures g == q
  {
    assert g == g * (f * q);
    assert g * (f * q) == (f * g) * q;
  }

  /** The rebased rate of a listed currency other than the new base is its
      old rate (one for the old base) times the factor. */
  lemma RebasedRateOf(t: Table, newBase: Code, f: real, codes: seq<Code>, c: Code)
    requires Normalized(t) && c in codes && c != newBase
    ensures c in RebaseTable(t, newBase, f, codes).rates
    ensures RebaseTable(t, newBase, f, codes).rates[c] == (if c == t.base then 1.0 else RateOr1(t.rates, c)) * f
  {
  }

  /** Shown in the new base, an amount rescaled by the factor is the old
      display value times the factor squared. */
  lemma ShownInNewBase(t: Table, t': Table, amount: real, f: real)
    requires Normalized(t) && t'.base != t.base
    requires Truthy(t.rates, t'.base) ==> f * t.rates[t'.base] == 1.0
    requires !Truthy(t.rates, t'.base) ==> f == 1.0
    ensures FromBase(amount * f, t'.base, t') == FromBase(amount, t'.base, t) * f * f
  {
    if Truthy(t.rates, t'.base) {
      SquareOfInverse(amount, f, t.rates[t'.base]);
    }
  }

  /** A currency whose rate was multiplied by `f` shows an amount multiplied
      by `f` as the old display value times `f` squared. */
  lemma ShownAfterRescale(t: Table, t': Table, amount: real, f: real, c: Code)
    requires Normalized(t) && c != t'.base && f != 0.0
    requires c in t'.rates && t'.rates[c] == (if c == t.base then 1.0 else RateOr1(t.rates, c)) * f
    ensures FromBase(amount * f, c, t') == FromBase(amount, c, t) * f * f
  {
    var p := if c == t.base then 1.0 else RateOr1(t.rates, c);
    NonZeroProduct(p, f);
    var lhs := FromBase(amount * f, c, t');
    assert lhs == amount * f * (p * f);
    var before := FromBase(amount, c, t);
    FromBaseIsScaling(amount, c, t);
    Reorder(lhs, before, amount, f, p);
  }

  /** Rebasing with a factor that inverts the new base's rate (or is one
      when that rate is falsy) multiplies every amount shown in a listed
      currency, or in the new base, by the factor squared. */
  lemma RebasedShownScales(t: Table, newBase: Code, f: real, codes: seq<Code>, amount: real, c: Code)
    requires Normalized(t) && newBase != t.base
    requires c in codes || c == newBase
    requires f != 0.0
    requires Truthy(t.rates, newBase) ==> f * t.rates[newBase] == 1.0
    requires !Truthy(t.rates, newBase) ==> f == 1.0
    ensures FromBase(amount * f, c, RebaseTable(t, newBase, f, codes)) == FromBase(amount, c, t) * f * f
  {
    var t' := RebaseTable(t, newBase, f, codes);
    if c == newBase {
      ShownInNewBase(t, t', amount, f);
    } else {
      RebasedRateOf(t, newBase, f, codes, c);
      ShownAfterRescale(t, t', amount, f, c);
    }
  }

  /** Rebasing a table with the handler's factor multiplies every amount
      shown in a listed currency, or in the new base, by the factor squared. */
  lemma FactorShownScales(t: Table, newBase: Code, codes: seq<Code>, amount: real, c: Code, f: real)
    requires Normalized(t) && newBase != t.base
    requires c in codes || c == newBase
    requires f == Factor(t.rates, t.base, newBase)
    ensures FromBase(amount * f, c, RebaseTable(t, newBase, f, codes)) == FromBase(amount, c, t) * f * f
  {
    FactorFits(t.rates, t.base, newBase, f);
    RebasedShownScales(t, newBase, f, codes, amount, c);
  }

  /** The characterisation of the handler's effect on what the user sees:
      from a normalized table, every amount shown in a supported currency (or
      in the new base) after the change is the amount shown before it times
      the factor `f` squared. */
  lemma ShownAmountScalesBySquare(s: State, newBase: Code, amount: real, c: Code, f: real)
    requires Normalized(s.table) && newBase != s.table.base
    requires c in Currencies || c == newBase
    requires f == Factor(s.table.rates, s.table.base, newBase)
    ensures FromBase(amount * f, c, SaveSettings(s, newBase).table) == FromBase(amount, c, s.table) * f * f
  {
    FactorShownScales(s.table, newBase, Currencies, amount, c, f);
    SaveSettingsTable(s, newBase, f);
  }

  /** When the new base's rate is truthy, a non-zero amount keeps its value
      under the factor squared exactly when that rate squares to one. */
  lemma FactorSquareKeepsIff(after: real, before: real, rates: Rates, oldBase: Code, newBase: Code, f: real)
    requires Truthy(rates, oldBase) && Truthy(rates, newBase)
    requires f == Factor(rates, oldBase, newBase)
    requires before != 0.0 && after == before * f * f
    ensures after == before <==> rates[newBase] * rates[newBase] == 1.0
  {
    FactorInvertsRate(rates, oldBase, newBase);
    SquareKeepsIff(before, f, rates[newBase]);
  }

  lemma FactorKeptIff(t: Table, newBase: Code, codes: seq<Code>, amount: real, c: Code, f: real)
    requires Normalized(t) && newBase != t.base
    requires c in codes || c == newBase
    requires Truthy(t.rates, newBase) && amount != 0.0
    requires f == Factor(t.rates, t.base, newBase)
    ensures (FromBase(amount * f, c, RebaseTable(t, newBase, f, codes)) == FromBase(amount, c, t))
        <==> t.rates[newBase] * t.rates[newBase] == 1.0
  {
    FactorShownScales(t, newBase, codes, amount, c, f);
    ShownNonZero(amount, c, t);
    FactorSquareKeepsIff(FromBase(amount * f, c, RebaseTable(t, newBase, f, codes)), FromBase(amount, c, t),
                         t.rates, t.base, newBase, f);
  }

  lemma PositiveSquare(q: real)
    requires q > 0.0
    ensures q * q == 1.0 <==> q == 1.0
  {
    if q < 1.0 {
      assert q * q < 1.0 * q;
    }
    if q > 1.0 {
      assert q * q > 1.0 * q;
    }
  }

  /** Hence, with the usual positive rate for the new base, a non-zero amount
      shown in a supported currency keeps its displayed value exactly when
      that rate is one. */
  lemma ShownAmountKeptIff(s: State, newBase: Code, amount: real, c: Code, f: real)
    requires Normalized(s.table) && newBase != s.table.base
    requires c in Currencies || c == newBase
    requires newBase in s.table.rates && s.table.rates[newBase] > 0.0 && amount != 0.0
    requires f == Factor(s.table.rates, s.table.base, newBase)
    ensures (FromBase(amount * f, c, SaveSettings(s, newBase).table) == FromBase(amount, c, s.table))
        <==> s.table.rates[newBase] == 1.0
  {
    FactorKeptIff(s.table, newBase, Currencies, amount, c, f);
    PositiveSquare(s.table.rates[newBase]);
    SaveSettingsTable(s, newBase, f);
  }

  lemma ShownNonZero(amount: real, c: Code, t: Table)
    requires amount != 0.0
    ensures FromBase(amount, c, t) != 0.0
  {
    ToBaseUndoesFromBase(amount, c, t);
  }

  lemma Distribute(a: real, b: real, f: real)
    ensures a * f + b * f == (a + b) * f
  {
  }

  lemma DistributeDifference(a: real, b: real, c: real, f: real)
    ensures (a * f - b * f) + c * f == ((a - b) + c) * f
  {
  }

  /** The rebase rescales the total spent by the factor. */
  lemma {:induction false} RebaseScalesSpent(txs: seq<Transaction>, f: real)
    ensures Spent(RescaleAll(txs, f)) == Spent(txs) * f
  {
    if |txs| > 0 {
      var r := RescaleAll(txs, f);
      assert r[1..] == RescaleAll(txs[1..], f);
      RebaseScalesSpent(txs[1..], f);
      Distribute(txs[0].buy, Spent(txs[1..]), f);
    }
  }

  /** The rebase rescales the net profit by the factor. */
  lemma {:induction false} RebaseScalesNet(txs: seq<Transaction>, f: real)
    ensures Net(RescaleAll(txs, f)) == Net(txs) * f
  {
    if |txs| > 0 {
      var r := RescaleAll(txs, f);
      assert r[1..] == RescaleAll(txs[1..], f);
      RebaseScalesNet(txs[1..], f);
      DistributeDifference(SellOrZero(txs[0]), txs[0].buy, Net(txs[1..]), f);
    }
  }

  lemma PercentScaleFree(net: real, spent: real, f: real)
    requires f > 0.0
    ensures Percent(net * f, spent * f) == Percent(net, spent)
  {
    if spent > 0.0 {
      assert spent * f > 0.0;
      var p := Percent(net, spent);
      var p' := Percent(net * f, spent * f);
      assert p' * spent * f == p * spent * f;
      assert (p' - p) * (spent * f) == 0.0;
    } else {
      assert spent * f <= 0.0;
    }
  }

  /** With a positive factor the rebase leaves the profit percentage as it was. */
  lemma RebaseKeepsPercent(txs: seq<Transaction>, f: real)
    requires f > 0.0
    ensures Percent(Net(RescaleAll(txs, f)), Spent(RescaleAll(txs, f))) == Percent(Net(txs), Spent(txs))
  {
    RebaseScalesSpent(txs, f);
    RebaseScalesNet(txs, f);
    PercentScaleFree(Net(txs), Spent(txs), f);
  }

  /** The `null` sell prices the rebase turns into 0 still show as unsold in
      the table, since a sell cell is filled only for a truthy price. */
  lemma RebaseKeepsSoldMarker(t: Transaction, f: real, c: Code, table: Table, table': Table)
    requires f != 0.0
    ensures RowView(Rescale(t, f), c, table').sold == RowView(t, c, table).sold
  {
  }

  /** A USD ledger with EUR at 2 and a purchase of 100: moving the base to EUR
      stores 50 and sets USD to 0.5. */
  lemma RebaseExample()
    ensures var s := State(Table("USD", "USD", map["USD" := 1.0, "EUR" := 2.0, "AUD" := 1.5]),
                           [Transaction("a", "", "", "Case", "", 100.0, None)]);
      var r := SaveSettings(s, "EUR");
      && r.transactions[0].buy == 50.0
      && r.transactions[0].sell == Some(0.0)
      && r.table.rates == map["EUR" := 1.0, "USD" := 0.5, "AUD" := 0.75]
  {
    var r := SaveSettings(State(Table("USD", "USD", map["USD" := 1.0, "EUR" := 2.0, "AUD" := 1.5]),
                                [Transaction("a", "", "", "Case", "", 100.0, None)]), "EUR");
    assert Factor(map["USD" := 1.0, "EUR" := 2.0, "AUD" := 1.5], "USD", "EUR") == 0.5;
    assert r.table.rates.Keys == {"EUR", "USD", "AUD"};
  }

  /** If the old base has no truthy rate the factor is one: amounts stay as
      they are, but unsold items now carry a sell price of 0. */
  lemma DegradedRebaseKeepsAmounts(s: State, newBase: Code, i: nat)
    requires newBase != s.table.base && !Truthy(s.table.rates, s.table.base)
    requires i < |s.transactions|
    ensures SaveSettings(s, newBase).transactions[i].buy == s.transactions[i].buy
    ensures SaveSettings(s, newBase).transactions[i].sell == Some(SellOrZero(s.transactions[i]))
  {
  }

  /** Rescaling by `f` and then by its inverse restores the amounts; only
      a `null` sell price stays a 0. */
  lemma RescaleTwice(t: Transaction, f: real, g: real)
    requires f * g == 1.0
    ensures Rescale(Rescale(t, f), g) == t.(sell := Some(SellOrZero(t)))
  {
    var once := Rescale(t, f);
    var a := SellOrZero(t);
    assert SellOrZero(once) == a * f;
    CancelInverse(t.buy, f, g);
    CancelInverse(a, f, g);
    var twice := Rescale(once, g);
    assert twice.sell.value == a * f * g;
    assert twice.buy == t.buy * f * g;
    assert twice.buy == t.buy;
    assert twice.sell.value == a;
    assert twice.sell.Some?;
    assert twice.sell == Some(a);
    assert twice.id == t.id && twice.date == t.date && twice.itemName == t.itemName;
    assert twice.kind == t.kind && twice.notes == t.notes;
    assert twice == t.(sell := Some(a));
  }

  lemma RescaleAllTwice(txs: seq<Transaction>, f: real, g: real)
    requires f * g == 1.0
    ensures |RescaleAll(RescaleAll(txs, f), g)| == |txs|
    ensures forall i :: 0 <= i < |txs| ==>
      RescaleAll(RescaleAll(txs, f), g)[i] == txs[i].(sell := Some(SellOrZero(txs[i])))
  {
    forall i | 0 <= i < |txs|
      ensures RescaleAll(RescaleAll(txs, f), g)[i] == txs[i].(sell := Some(SellOrZero(txs[i])))
    {
      RescaleTwice(txs[i], f, g);
    }
  }

  /** Rebasing the table there and back with inverse factors restores a table
      that held exactly the supported currencies at truthy rates. */
  lemma RebaseRatesTwice(r: Rates, x: Code, newBase: Code, f: real, g: real, codes: seq<Code>)
    requires x in r && r[x] == 1.0 && x != newBase
    requires x in codes && newBase in codes
    requires r.Keys == set c | c in codes
    requires forall c :: c in codes ==> Truthy(r, c)
    requires f * g == 1.0 && f * r[newBase] == 1.0
    ensures RebaseRates(RebaseRates(r, newBase, f, codes), x, g, codes) == r
  {
    var rb := RebaseRates(RebaseRates(r, newBase, f, codes), x, g, codes);
    forall c | c in codes
      ensures rb[c] == r[c]
    {
      if c == newBase {
        NewBaseBackAt(r, x, newBase, f, g, codes);
      } else if c != x {
        OtherBackAt(r, x, newBase, f, g, codes, c);
      }
    }
    assert rb.Keys == r.Keys;
  }

  lemma NewBaseBackAt(r: Rates, x: Code, newBase: Code, f: real, g: real, codes: seq<Code>)
    requires x != newBase && x in codes && newBase in codes && newBase in r
    requires f * g == 1.0 && f * r[newBase] == 1.0
    ensures RebaseRates(RebaseRates(r, newBase, f, codes), x, g, codes)[newBase] == r[newBase]
  {
    var mid := RebaseRates(r, newBase, f, codes);
    NewBaseRateTwice(r, mid, RebaseRates(mid, x, g, codes), f, g, newBase);
  }

  lemma OtherBackAt(r: Rates, x: Code, newBase: Code, f: real, g: real, codes: seq<Code>, c: Code)
    requires x in codes && c in codes && c != x && c != newBase && Truthy(r, c)
    requires f * g == 1.0
    ensures RebaseRates(RebaseRates(r, newBase, f, codes), x, g, codes)[c] == r[c]
  {
    var mid := RebaseRates(r, newBase, f, codes);
    OtherRateTwice(r, mid, RebaseRates(mid, x, g, codes), f, g, c);
  }

  /** The new base sits at one in between and at the second factor after,
      which is its old rate. */
  lemma NewBaseRateTwice(r: Rates, mid: Rates, rb: Rates, f: real, g: real, c: Code)
    requires c in r && c in mid && c in rb
    requires mid[c] == 1.0 && rb[c] == RateOr1(mid, c) * g
    requires f * g == 1.0 && f * r[c] == 1.0
    ensures rb[c] == r[c]
  {
    InverseUnique(f, g, r[c]);
  }

  /** Any other currency is multiplied by `f` and then by its inverse. */
  lemma OtherRateTwice(r: Rates, mid: Rates, rb: Rates, f: real, g: real, c: Code)
    requires Truthy(r, c) && c in mid && c in rb
    requires mid[c] == RateOr1(r, c) * f && rb[c] == RateOr1(mid, c) * g
    requires f * g == 1.0
    ensures rb[c] == r[c]
  {
    NonZeroProduct(r[c], f);
    CancelInverse(r[c], f, g);
  }

  /** After a first move with a factor that inverts the new base's rate, the
      old base sits at that factor and the new base at one, so the factor of
      the move back is the inverse of the first. */
  lemma BackFactorInverts(t: Table, newBase: Code, f: real, codes: seq<Code>)
    requires Normalized(t) && newBase != t.base && t.base in codes
    requires f != 0.0
    ensures f * Factor(RebaseTable(t, newBase, f, codes).rates, newBase, t.base) == 1.0
  {
    var r' := RebaseTable(t, newBase, f, codes).rates;
    RebasedRateOf(t, newBase, f, codes, t.base);
    assert r'[t.base] == f;
    assert r'[newBase] == 1.0;
  }

  /** The move back is itself a rebase... */
  lemma BackIsRebased(s: State, newBase: Code, f: real)
    requires newBase != s.table.base
    requires f == Factor(s.table.rates, s.table.base, newBase)
    ensures var g := Factor(Rebased(s, newBase, f).table.rates, newBase, s.table.base);
      SaveSettings(SaveSettings(s, newBase), s.table.base) == Rebased(Rebased(s, newBase, f), s.table.base, g)
  {
    SaveSettingsTable(s, newBase, f);
    SaveSettingsTransactions(s, newBase, f);
  }

  /** ...with the inverse factor. */
  lemma BackFactor(s: State, newBase: Code, f: real)
    requires Normalized(s.table) && newBase != s.table.base
    requires s.table.base in Currencies && Truthy(s.table.rates, newBase)
    requires f == Factor(s.table.rates, s.table.base, newBase)
    ensures var g := Factor(Rebased(s, newBase, f).table.rates, newBase, s.table.base);
      f * g == 1.0 && f * s.table.rates[newBase] == 1.0
  {
    assert Rebased(s, newBase, f).table == RebaseTable(s.table, newBase, f, Currencies);
    BackFactorInverts(s.table, newBase, f, Currencies);
    FactorFits(s.table.rates, s.table.base, newBase, f);
  }

  /** Two rebases with inverse factors restore every amount, and leave a 0
      for a sell price that was `null`. */
  lemma TransactionsBack(s: State, newBase: Code, f: real, g: real)
    requires f * g == 1.0
    ensures var back := Rebased(Rebased(s, newBase, f), s.table.base, g);
      && |back.transactions| == |s.transactions|
      && (forall i :: 0 <= i < |s.transactions| ==>
            back.transactions[i] == s.transactions[i].(sell := Some(SellOrZero(s.transactions[i]))))
  {
    RescaleAllTwice(s.transactions, f, g);
  }

  /** Two rebases with inverse factors restore a table that held exactly the
      supported currencies, all at truthy rates. */
  lemma RatesBack(s: State, newBase: Code, f: real, g: real)
    requires Normalized(s.table) && newBase != s.table.base
    requires s.table.base in Currencies && newBase in Currencies
    requires s.table.rates.Keys == set c | c in Currencies
    requires forall c :: c in Currencies ==> Truthy(s.table.rates, c)
    requires f * g == 1.0 && f * s.table.rates[newBase] == 1.0
    ensures Rebased(Rebased(s, newBase, f), s.table.base, g).table.rates == s.table.rates
  {
    RebaseRatesTwice(s.table.rates, s.table.base, newBase, f, g, Currencies);
  }

  /** Moving the base away and back again restores every amount (an unsold
      item keeps a sell price of 0), and restores the rate table when it held
      exactly the supported currencies, all at truthy rates. */
  lemma RebaseThereAndBack(s: State, newBase: Code, f: real)
    requires Normalized(s.table) && newBase != s.table.base
    requires s.table.base in Currencies && newBase in Currencies
    requires Truthy(s.table.rates, newBase)
    requires f == Factor(s.table.rates, s.table.base, newBase)
    ensures var back := SaveSettings(SaveSettings(s, newBase), s.table.base);
      && back.table.base == s.table.base
      && |back.transactions| == |s.transactions|
      && (forall i :: 0 <= i < |s.transactions| ==>
            back.transactions[i] == s.transactions[i].(sell := Some(SellOrZero(s.transactions[i]))))
      && (((s.table.rates.Keys == set c | c in Currencies) && (forall c :: c in Currencies ==> Truthy(s.table.rates, c)))
            ==> back.table.rates == s.table.rates)
  {
    var g := Factor(Rebased(s, newBase, f).table.rates, newBase, s.table.base);
    BackFactor(s, newBase, f);
    TransactionsBack(s, newBase, f, g);
    if (s.table.rates.Keys == set c | c in Currencies) && (forall c :: c in Currencies ==> Truthy(s.table.rates, c)) {
      RatesBack(s, newBase, f, g);
    }
    BackIsRebased(s, newBase, f);
  }

  /** Whatever the table, the rebased table leaves the old base at
      `r[oldBase] * f`, so the way back has the reciprocal of that as its
      factor. */
  lemma BackFactorIsReciprocal(r: Rates, oldBase: Code, newBase: Code, f: real)
    requires newBase != oldBase && oldBase in Currencies
    requires Truthy(r, oldBase) && f != 0.0
    ensures IsReciprocalOf(Factor(RebaseRates(r, newBase, f, Currencies), newBase, oldBase), r[oldBase], f)
  {
    var r1 := RebaseRates(r, newBase, f, Currencies);
    var a := r[oldBase] * f;
    NonZeroProduct(r[oldBase], f);
    RebasedOldRate(r, oldBase, newBase, f);
    FactorWhenTruthy(r1, newBase, oldBase, a);
  }

  /** The rebased table holds the old base at its old rate times `f`. */
  lemma RebasedOldRate(r: Rates, oldBase: Code, newBase: Code, f: real)
    requires newBase != oldBase && oldBase in Currencies && Truthy(r, oldBase)
    ensures RebaseRates(r, newBase, f, Currencies)[oldBase] == r[oldBase] * f
  {
  }

  /** With both rates truthy, the factor is one over the new base's rate. */
  lemma FactorWhenTruthy(r: Rates, oldBase: Code, newBase: Code, a: real)
    requires Truthy(r, oldBase) && newBase in r && r[newBase] == a && a != 0.0
    ensures Factor(r, oldBase, newBase) == 1.0 / a
  {
  }

  lemma ScaleCompose(x: real, f: real, g: real, k: real)
    requires f * g == k
    ensures x * f * g == x * k
  {
    assert x * f * g == x * (f * g);
  }

  /** Rescaling by `f` and then by `g` is rescaling by their product. */
  lemma RescaleCompose(t: Transaction, f: real, g: real, k: real)
    requires f * g == k
    ensures Rescale(Rescale(t, f), g) == Rescale(t, k)
  {
    var once := Rescale(t, f);
    ScaleCompose(t.buy, f, g, k);
    ScaleCompose(SellOrZero(t), f, g, k);
    calc {
      Rescale(once, g).buy;
      once.buy * g;
      t.buy * f * g;
      t.buy * k;
    }
    calc {
      Rescale(once, g).sell.value;
      SellOrZero(once) * g;
      SellOrZero(t) * f * g;
      SellOrZero(t) * k;
    }
    assert Rescale(t, k).sell.value == SellOrZero(t) * k;
    assert Rescale(once, g).sell.Some? && Rescale(t, k).sell.Some?;
    assert Rescale(once, g).sell == Rescale(t, k).sell;
  }

  /** `g` is the reciprocal of `a * f`. */
  predicate IsReciprocalOf(g: real, a: real, f: real) {
    a * f != 0.0 && g == 1.0 / (a * f)
  }

  lemma ProductIsReciprocal(a: real, f: real, g: real)
    requires IsReciprocalOf(g, a, f)
    ensures a != 0.0 && f * g == 1.0 / a
  {
    assert g * (a * f) == 1.0;
    assert (f * g) * a == 1.0;
  }

  /** Rescaling by `f` and then by the reciprocal of `a * f` divides every
      amount by `a`. */
  lemma RescaleAllDivides(txs: seq<Transaction>, a: real, f: real, g: real)
    requires IsReciprocalOf(g, a, f)
    ensures a != 0.0
    ensures RescaleAll(RescaleAll(txs, f), g) == RescaleAll(txs, 1.0 / a)
  {
    ProductIsReciprocal(a, f, g);
    var once := RescaleAll(txs, f);
    forall i | 0 <= i < |txs|
      ensures RescaleAll(once, g)[i] == RescaleAll(txs, 1.0 / a)[i]
    {
      RescaleCompose(txs[i], f, g, 1.0 / a);
    }
  }

  /** Two saves, away and back, rescale the amounts by the two handlers'
      factors. */
  lemma SaveTwiceTransactions(s: State, newBase: Code, f: real, g: real)
    requires newBase != s.table.base
    requires f == Factor(s.table.rates, s.table.base, newBase)
    requires g == Factor(RebaseRates(s.table.rates, newBase, f, Currencies), newBase, s.table.base)
    ensures SaveSettings(SaveSettings(s, newBase), s.table.base).transactions
      == RescaleAll(RescaleAll(s.transactions, f), g)
  {
    BackIsRebased(s, newBase, f);
    assert Rebased(s, newBase, f).table.rates == RebaseRates(s.table.rates, newBase, f, Currencies);
  }

  /** From a table whose base is not at rate one the round trip does not
      restore the amounts: with both base rates truthy, every amount comes
      back divided by the old base's rate (an unsold item's `null` sell
      price coming back as 0). */
  lemma ThereAndBackDividesByBaseRate(s: State, newBase: Code)
    requires newBase != s.table.base && s.table.base in Currencies
    requires Truthy(s.table.rates, newBase) && Truthy(s.table.rates, s.table.base)
    ensures SaveSettings(SaveSettings(s, newBase), s.table.base).transactions
      == RescaleAll(s.transactions, 1.0 / s.table.rates[s.table.base])
  {
    var f := Factor(s.table.rates, s.table.base, newBase);
    var g := Factor(RebaseRates(s.table.rates, newBase, f, Currencies), newBase, s.table.base);
    BackFactorIsReciprocal(s.table.rates, s.table.base, newBase, f);
    RescaleAllDivides(s.transactions, s.table.rates[s.table.base], f, g);
    SaveTwiceTransactions(s, newBase, f, g);
  }
}

=== FILE: stats.dfy ===
/** The arithmetic behind the statistics cards and the per-row cells of the
    transaction table: sums in the base currency, converted for display only
    after summing. */
module Stats {
  import opened Wrappers
  import opened Currency
  import opened Ledger

  /** Total spent: the sum of the buy amounts. */
  function Spent(txs: seq<Transaction>): real {
    if |txs| == 0 then 0.0 else txs[0].buy + Spent(txs[1..])
  }

  /** Total received: the sum of the sell amounts, an unsold item counting 0. */
  function Sold(txs: seq<Transaction>): real {
    if |txs| == 0 then 0.0 else SellOrZero(txs[0]) + Sold(txs[1..])
  }

  /** Net profit: the sum of `(sell || 0) - buy`. */
  function Net(txs: seq<Transaction>): real {
    if |txs| == 0 then 0.0 else (SellOrZero(txs[0]) - txs[0].buy) + Net(txs[1..])
  }

  /** Without a negative buy amount the total spent is not negative. */
  lemma {:induction false} SpentNonNegative(txs: seq<Transaction>)
    requires forall i :: 0 <= i < |txs| ==> txs[i].buy >= 0.0
    ensures Spent(txs) >= 0.0
  {
    if |txs| > 0 {
      var rest := txs[1..];
      assert forall i :: 0 <= i < |rest| ==> rest[i] == txs[i + 1];
      SpentNonNegative(rest);
    }
  }

  /** Without a losing row there is no loss. */
  lemma {:induction false} NoLossWithoutLosingRow(txs: seq<Transaction>)
    requires forall i :: 0 <= i < |txs| ==> SellOrZero(txs[i]) >= txs[i].buy
    ensures Net(txs) >= 0.0
  {
    if |txs| > 0 {
      var rest := txs[1..];
      assert forall i :: 0 <= i < |rest| ==> rest[i] == txs[i + 1];
      NoLossWithoutLosingRow(rest);
    }
  }

  /** The net profit is what was received minus what was spent. */
  lemma {:induction false} NetIsSoldMinusSpent(txs: seq<Transaction>)
    ensures Net(txs) == Sold(txs) - Spent(txs)
  {
    if |txs| > 0 {
      NetIsSoldMinusSpent(txs[1..]);
    }
  }

  /** The sums split over any split of the ledger. */
  lemma {:induction false} SumsAppend(a: seq<Transaction>, b: seq<Transaction>)
    ensures Spent(a + b) == Spent(a) + Spent(b)
    ensures Net(a + b) == Net(a) + Net(b)
  {
    if |a| == 0 {
      assert a + b == b;
    } else {
      assert (a + b)[1..] == a[1..] + b;
      SumsAppend(a[1..], b);
    }
  }

  /** `spentBase > 0 ? (netBase / spentBase) * 100 : 0`. */
  function Percent(net: real, spent: real): (p: real)
    ensures spent > 0.0 ==> p * spent == net * 100.0
    ensures spent <= 0.0 ==> p == 0.0
  {
    if spent > 0.0 then net / spent * 100.0 else 0.0
  }

  /** The statistics cards: spent and net in the display currency, the profit
      percentage, and whether the net card is marked positive. */
  datatype Summary = Summary(spent: real, net: real, percent: real, positive: bool)

  /** `$('#display-currency').value || displayCurrency || baseCurrency`. */
  function ShownCurrency(t: Table, selected: Code): Code {
    if selected != "" then selected else if t.display != "" then t.display else t.base
  }

  /** `renderStats`: sums in the base currency, then conversion of the sums. */
  function Summarize(s: State, selected: Code): (r: Summary)
    ensures var c := ShownCurrency(s.table, selected);
      && r.spent == FromBase(Spent(s.transactions), c, s.table)
      && r.net == FromBase(Net(s.transactions), c, s.table)
    ensures Spent(s.transactions) > 0.0 ==> r.percent * Spent(s.transactions) == Net(s.transactions) * 100.0
    ensures Spent(s.transactions) <= 0.0 ==> r.percent == 0.0
    ensures r.positive <==> r.net >= 0.0
    ensures |s.transactions| == 0 ==> r == Summary(0.0, 0.0, 0.0, true)
  {
    var c := ShownCurrency(s.table, selected);
    var spent := Spent(s.transactions);
    var net := Net(s.transactions);
    var netShown := FromBase(net, c, s.table);
    Summary(FromBase(spent, c, s.table), netShown, Percent(net, spent), netShown >= 0.0)
  }

  /** The sum of the buy amounts each converted on its own. */
  function SpentShownPerRow(txs: seq<Transaction>, c: Code, t: Table): real {
    if |txs| == 0 then 0.0 else FromBase(txs[0].buy, c, t) + SpentShownPerRow(txs[1..], c, t)
  }

  /** Converting after summing gives the same total as summing the converted
      rows (conversion is linear), so the cards agree with the table. */
  lemma {:induction false} ConvertAfterSumAgrees(txs: seq<Transaction>, c: Code, t: Table)
    ensures FromBase(Spent(txs), c, t) == SpentShownPerRow(txs, c, t)
  {
    if |txs| > 0 {
      ConvertAfterSumAgrees(txs[1..], c, t);
      FromBaseAdditive(txs[0].buy, Spent(txs[1..]), c, t);
    }
  }

  /** A bought-for-10, sold-for-15 item and a bought-for-20 unsold one: spent
      30, net -15, profit -50 percent. */
  lemma SummaryExample(t: Table)
    requires t.display == "" || t.display == t.base
    ensures var s := State(t, [Transaction("a", "", "", "", "", 10.0, Some(15.0)),
                               Transaction("b", "", "", "", "", 20.0, None)]);
      var r := Summarize(s, "");
      Spent(s.transactions) == 30.0 && Net(s.transactions) == -15.0
      && r.spent == 30.0 && r.net == -15.0 && r.percent == -50.0 && !r.positive
  {
    var a := Transaction("a", "", "", "", "", 10.0, Some(15.0));
    var b := Transaction("b", "", "", "", "", 20.0, None);
    var txs := [a, b];
    assert txs[1..] == [b] && [b][1..] == [];
    assert Spent([b]) == 20.0 && Net([b]) == -20.0;
    assert Spent(txs) == 10.0 + Spent([b]) == 30.0;
    assert Net(txs) == 5.0 + Net([b]) == -15.0;
    assert Percent(-15.0, 30.0) == -50.0;
  }

  /** With non-negative amounts the loss never exceeds 100 percent. */
  lemma {:induction false} LossAtMostAll(txs: seq<Transaction>)
    requires forall i :: 0 <= i < |txs| ==> txs[i].buy >= 0.0 && SellOrZero(txs[i]) >= 0.0
    ensures Net(txs) >= -Spent(txs)
    ensures Percent(Net(txs), Spent(txs)) >= -100.0
  {
    NetAtLeastMinusSpent(txs);
    var n, sp := Net(txs), Spent(txs);
    if sp > 0.0 {
      PercentBound(Percent(n, sp), n, sp);
    }
  }

  lemma {:induction false} NetAtLeastMinusSpent(txs: seq<Transaction>)
    requires forall i :: 0 <= i < |txs| ==> SellOrZero(txs[i]) >= 0.0
    ensures Net(txs) >= -Spent(txs)
  {
    if |txs| > 0 {
      var rest := txs[1..];
      assert forall i :: 0 <= i < |rest| ==> rest[i] == txs[i + 1];
      NetAtLeastMinusSpent(rest);
    }
  }

  lemma PercentBound(p: real, n: real, sp: real)
    requires sp > 0.0 && p * sp == n * 100.0 && n >= -sp
    ensures p >= -100.0
  {
    assert p * sp >= -100.0 * sp;
  }

  /** Adding a transaction adds its converted buy amount to the total spent. */
  lemma AddIncreasesSpent(s: State, e: Entry, freshId: string)
    ensures Spent(Add(s, e, freshId).transactions)
         == Spent(s.transactions) + ToBase(e.buy, EntryCurrency(e, s.table), s.table)
  {
    var r := Add(s, e, freshId).transactions;
    assert r == s.transactions + [r[|s.transactions|]];
    SumsAppend(s.transactions, [r[|s.transactions|]]);
  }

  // ---------------------------------------------------------------------
  // One table row

  /** The money cells of one table row: buy and sell in the display currency,
      their difference, the row's profit percentage, and whether the sell,
      difference and percentage cells are filled (`t.sellPriceBase ? … : '—'`). */
  datatype Row = Row(buy: real, sell: real, diff: real, percent: real, sold: bool)

  /** `buyPriceBase > 0 ? ((sell || 0) - buy) / buy * 100 : 0`. */
  function RowPercent(t: Transaction): (p: real)
    ensures t.buy > 0.0 ==> p * t.buy == (SellOrZero(t) - t.buy) * 100.0
    ensures t.buy <= 0.0 ==> p == 0.0
  {
    Percent(SellOrZero(t) - t.buy, t.buy)
  }

  function RowView(t: Transaction, c: Code, table: Table): (r: Row)
    ensures r.diff == FromBase(SellOrZero(t) - t.buy, c, table)
    ensures ToBase(r.buy, c, table) == t.buy
    ensures ToBase(r.sell, c, table) == SellOrZero(t)
    ensures r.diff == r.sell - r.buy
    ensures r.percent == RowPercent(t)
    ensures r.sold <==> t.sell.Some? && t.sell.value != 0.0
  {
    var buy := FromBase(t.buy, c, table);
    var sell := FromBase(SellOrZero(t), c, table);
    FromBaseAdditive(SellOrZero(t), t.buy, c, table);
    ToBaseUndoesFromBase(t.buy, c, table);
    ToBaseUndoesFromBase(SellOrZero(t), c, table);
    Row(buy, sell, sell - buy, RowPercent(t), t.sell.Some? && t.sell.value != 0.0)
  }

  /** For a one-transaction ledger the card's percentage is the row's. */
  lemma SingleRowPercent(t: Transaction, table: Table, selected: Code)
    ensures Summarize(State(table, [t]), selected).percent == RowPercent(t)
  {
    assert [t][1..] == [];
    assert Spent([t]) == t.buy;
    assert Net([t]) == SellOrZero(t) - t.buy;
  }
}

=== FILE: steamid.dfy ===
/** The two ways the server reads a Steam ID: the strict check at login and
    the lenient `validateSteamId` used before fetching an inventory. */
module SteamId {
  import opened Wrappers
  import opened Strings

  predicate IsDigit(c: char) {
    '0' <= c <= '9'
  }

  /** `a` ends `b`. */
  predicate IsSuffix(a: string, b: string) {
    |a| <= |b| && a == b[|b| - |a|..]
  }

  /** `/^7656\d{13}$/`: seventeen characters, the prefix `7656`, then digits. */
  predicate IsSteamId64(s: string) {
    |s| == 17 && s[..4] == "7656" && forall i :: 4 <= i < 17 ==> IsDigit(s[i])
  }

  /** `identifier.split('/').pop()` followed by the format check: the OpenID
      identifier's last path segment, or an error when it is not a Steam ID64. */
  datatype LoginError = InvalidSteamIdFormat

  function LoginSteamId(identifier: string): (r: Result<string, LoginError>)
    ensures r.Ok? ==> IsSteamId64(r.value) && '/' !in r.value
    ensures r.Ok? ==> 17 <= |identifier| && identifier[|identifier| - 17..] == r.value
    ensures r.Err? <==> !IsSteamId64(LastSegment(identifier))
  {
    var id := LastSegment(identifier);
    if IsSteamId64(id) then Ok(id) else Err(InvalidSteamIdFormat)
  }

  /** `validateSteamId`: a missing or empty input gives `null`; otherwise the
      trimmed input, cut to its last `/`-segment when it holds a `/`. The
      format test at the end returns the same value on both branches. */
  function ValidateSteamId(input: Option<string>): (r: Option<string>)
    ensures input.None? || input == Some("") <==> r.None?
    ensures r.Some? ==> r.value == LastSegment(Trim(input.value))
    ensures r.Some? ==> '/' !in r.value
    ensures r.Some? ==> IsSuffix(r.value, Trim(input.value))
    ensures r.Some? && '/' !in Trim(input.value) ==> r.value == Trim(input.value)
  {
    if input.None? || input.value == "" then None
    else
      var id := Trim(input.value);
      var id' := if '/' in id then LastSegment(id) else id;
      assert IsSuffix(id', id);
      if IsSteamId64(id') then Some(id') else Some(id')
  }

  /** The last segment after a `/` is whatever follows the last slash. */
  lemma LastSegmentAfterSlash(prefix: string, id: string)
    requires '/' !in id
    ensures LastSegment(prefix + "/" + id) == id
  {
    var s := prefix + "/" + id;
    var r := LastSegment(s);
    assert s[|s| - |id| - 1] == '/';
    assert r == s[|s| - |id|..] == id;
  }

  /** The login check accepts the OpenID identifier of any Steam profile and
      yields its ID64. */
  lemma LoginAcceptsProfileIdentifier(prefix: string, id: string)
    requires IsSteamId64(id)
    ensures LoginSteamId(prefix + "/" + id) == Ok(id)
  {
    assert '/' !in id by {
      forall i | 0 <= i < |id| ensures id[i] != '/' {
        if i >= 4 {
          assert IsDigit(id[i]);
        } else {
          assert id[i] == id[..4][i];
        }
      }
    }
    LastSegmentAfterSlash(prefix, id);
  }

  /** An ID accepted at login passes `validateSteamId` unchanged, so the
      inventory is fetched for exactly the signed-in account. */
  lemma ValidateKeepsLoginId(identifier: string)
    requires LoginSteamId(identifier).Ok?
    ensures ValidateSteamId(Some(LoginSteamId(identifier).value)) == Some(LoginSteamId(identifier).value)
  {
    var id := LoginSteamId(identifier).value;
    assert !IsSpace(id[0]) && !IsSpace(id[16]) by {
      assert id[0] == id[..4][0];
      assert IsDigit(id[16]);
    }
  }

  /** The lenient validator also takes a profile URL and recovers the ID64. */
  lemma ValidateReadsProfileUrl(prefix: string, id: string)
    requires IsSteamId64(id)
    requires |prefix| == 0 || !IsSpace(prefix[0])
    ensures ValidateSteamId(Some(prefix + "/" + id)) == Some(id)
  {
    var s := prefix + "/" + id;
    assert !IsSpace(s[0]) by {
      if |prefix| == 0 {
        assert s[0] == '/';
      } else {
        assert s[0] == prefix[0];
      }
    }
    assert !IsSpace(s[|s| - 1]) by {
      assert s[|s| - 1] == id[16];
      assert IsDigit(id[16]);
    }
    assert Trim(s) == s;
    assert s[|prefix|] == '/';
    LoginAcceptsProfileIdentifier(prefix, id);
  }

  /** Unlike the login check, the validator lets malformed IDs through: a
      short numeric ID is returned as typed, where login refuses it. */
  lemma ValidateAcceptsShortId()
    ensures ValidateSteamId(Some("12345")) == Some("12345")
    ensures LoginSteamId("https://steamcommunity.com/openid/id/12345").Err?
  {
    assert !IsSpace("12345"[0]) && !IsSpace("12345"[4]);
    assert '/' !in "12345";
    var u := "https://steamcommunity.com/openid/id/12345";
    assert u == "https://steamcommunity.com/openid/id" + "/" + "12345";
    LastSegmentAfterSlash("https://steamcommunity.com/openid/id", "12345");
  }
}

=== FILE: strings.dfy ===
/** The string operations of JavaScript that the ledger and the server rely on:
    `trim`, `split('/').pop()`, `replaceAll` of one character, ASCII
    `toLowerCase`, `includes` and code-point ordering of strings. */
module Strings {

  /** The characters `String.prototype.trim` removes: the WhiteSpace and
      LineTerminator code points of ECMAScript. */
  predicate IsSpace(c: char) {
    || c == ' ' || c == '\t' || c == '\n' || c == '\r'
    || c == '\U{000B}' || c == '\U{000C}' || c == '\U{00A0}' || c == '\U{1680}'
    || ('\U{2000}' <= c <= '\U{200A}')
    || c == '\U{2028}' || c == '\U{2029}' || c == '\U{202F}' || c == '\U{205F}'
    || c == '\U{3000}' || c == '\U{FEFF}'
  }

  /** Drops leading white space: the result is the suffix of `s` that starts
      at its first non-space character. */
  function TrimStart(s: string): (r: string)
    ensures |r| <= |s| && r == s[|s| - |r|..]
    ensures forall i :: 0 <= i < |s| - |r| ==> IsSpace(s[i])
    ensures |r| > 0 ==> !IsSpace(r[0])
  {
    if |s| > 0 && IsSpace(s[0]) then TrimStart(s[1..]) else s
  }

  /** Drops trailing white space: the result is the prefix of `s` that ends
      at its last non-space character. */
  function TrimEnd(s: string): (r: string)
    ensures |r| <= |s| && r == s[..|r|]
    ensures forall i :: |r| <= i < |s| ==> IsSpace(s[i])
    ensures |r| > 0 ==> !IsSpace(r[|r| - 1])
  {
    if |s| > 0 && IsSpace(s[|s| - 1]) then TrimEnd(s[..|s| - 1]) else s
  }

  /** `s.trim()`: no white space at either end, nothing but characters of
      `s`, and a string already free of white space at its ends is kept. */
  function Trim(s: string): (r: string)
    ensures |r| <= |s|
    ensures |r| > 0 ==> !IsSpace(r[0]) && !IsSpace(r[|r| - 1])
    ensures forall c :: c in r ==> c in s
    ensures |s| == 0 || (!IsSpace(s[0]) && !IsSpace(s[|s| - 1])) ==> r == s
  {
    var t := TrimStart(s);
    assert forall c :: c in t ==> c in s by {
      forall c | c in t ensures c in s {
        var i :| 0 <= i < |t| && t[i] == c;
        assert s[|s| - |t| + i] == c;
      }
    }
    TrimEnd(t)
  }

  lemma {:induction false} TrimStartSkipsSpaces(pre: string, s: string)
    requires forall i :: 0 <= i < |pre| ==> IsSpace(pre[i])
    requires |s| > 0 && !IsSpace(s[0])
    ensures TrimStart(pre + s) == s
  {
    if |pre| > 0 {
      assert (pre + s)[1..] == pre[1..] + s;
      TrimStartSkipsSpaces(pre[1..], s);
    } else {
      assert pre + s == s;
    }
  }

  lemma {:induction false} TrimEndSkipsSpaces(s: string, post: string)
    requires forall i :: 0 <= i < |post| ==> IsSpace(post[i])
    requires |s| > 0 && !IsSpace(s[|s| - 1])
    ensures TrimEnd(s + post) == s
  {
    if |post| > 0 {
      assert (s + post)[..|s + post| - 1] == s + post[..|post| - 1];
      TrimEndSkipsSpaces(s, post[..|post| - 1]);
    } else {
      assert s + post == s;
    }
  }

  /** Trimming removes exactly the white space padding around a text. */
  lemma TrimPadded(pre: string, core: string, post: string)
    requires forall i :: 0 <= i < |pre| ==> IsSpace(pre[i])
    requires forall i :: 0 <= i < |post| ==> IsSpace(post[i])
    requires |core| > 0 && !IsSpace(core[0]) && !IsSpace(core[|core| - 1])
    ensures Trim(pre + core + post) == core
  {
    assert pre + core + post == pre + (core + post);
    TrimStartSkipsSpaces(pre, core + post);
    TrimEndSkipsSpaces(core, post);
  }

  /** `s.split('/').pop()`: the longest suffix of `s` that holds no `/`. */
  function LastSegment(s: string): (r: string)
    ensures |r| <= |s| && r == s[|s| - |r|..]
    ensures '/' !in r
    ensures |r| < |s| ==> s[|s| - |r| - 1] == '/'
    ensures '/' !in s ==> r == s
  {
    if |s| == 0 then s
    else if s[|s| - 1] == '/' then []
    else
      var r := LastSegment(s[..|s| - 1]) + [s[|s| - 1]];
      assert s == s[..|s| - 1] + [s[|s| - 1]];
      r
  }

  /** `s.replaceAll(c, rep)` for a one-character pattern. */
  function ReplaceAll(s: string, c: char, rep: string): (r: string)
    ensures forall x :: x in r ==> x in rep || (x in s && x != c)
    ensures c !in s ==> r == s
    ensures |rep| >= 1 ==> |r| >= |s|
  {
    if |s| == 0 then []
    else (if s[0] == c then rep else [s[0]]) + ReplaceAll(s[1..], c, rep)
  }

  /** Replacing in a concatenation is replacing in each part. */
  lemma {:induction false} ReplaceAllAppend(a: string, b: string, c: char, rep: string)
    ensures ReplaceAll(a + b, c, rep) == ReplaceAll(a, c, rep) + ReplaceAll(b, c, rep)
  {
    if |a| == 0 {
      assert a + b == b;
    } else {
      var x, tail := a[0], a[1..];
      var h := if x == c then rep else [x];
      calc {
        ReplaceAll(a + b, c, rep);
        { assert a + b == [x] + (tail + b);
          ReplaceAllCons(x, tail + b, c, rep); }
        h + ReplaceAll(tail + b, c, rep);
        { ReplaceAllAppend(tail, b, c, rep); }
        h + (ReplaceAll(tail, c, rep) + ReplaceAll(b, c, rep));
        (h + ReplaceAll(tail, c, rep)) + ReplaceAll(b, c, rep);
        { assert a == [x] + tail;
          ReplaceAllCons(x, tail, c, rep); }
        ReplaceAll(a, c, rep) + ReplaceAll(b, c, rep);
      }
    }
  }

  lemma ReplaceAllCons(x: char, s: string, c: char, rep: string)
    ensures ReplaceAll([x] + s, c, rep) == (if x == c then rep else [x]) + ReplaceAll(s, c, rep)
  {
    assert ([x] + s)[1..] == s;
  }

  /** ASCII `toLowerCase`. */
  function Lower(c: char): char {
    if 'A' <= c <= 'Z' then (c as int + 32) as char else c
  }

  function LowerString(s: string): (r: string)
    ensures |r| == |s|
    ensures forall i :: 0 <= i < |s| ==> r[i] == Lower(s[i])
  {
    if |s| == 0 then [] else [Lower(s[0])] + LowerString(s[1..])
  }

  /** `s.includes(sub)`: `sub` occurs at some position of `s`. */
  predicate Contains(s: string, sub: string) {
    (|sub| <= |s| && s[..|sub|] == sub) || (|s| > 0 && Contains(s[1..], sub))
  }

  /** `sub` occurs in `s` starting at position `i`. */
  predicate OccursAt(s: string, sub: string, i: int) {
    0 <= i <= |s| - |sub| && s[i..i + |sub|] == sub
  }

  /** `Contains` is the occurrence of `sub` at some position. */
  lemma {:induction false} ContainsAt(s: string, sub: string)
    ensures Contains(s, sub) <==> exists i :: OccursAt(s, sub, i)
  {
    if |sub| <= |s| && s[..|sub|] == sub {
      assert OccursAt(s, sub, 0);
    }
    if |s| > 0 {
      var rest := s[1..];
      ContainsAt(rest, sub);
      if Contains(rest, sub) {
        var i :| OccursAt(rest, sub, i);
        assert s[i + 1..i + 1 + |sub|] == rest[i..i + |sub|];
        assert OccursAt(s, sub, i + 1);
      }
      if exists i :: OccursAt(s, sub, i) {
        var i :| OccursAt(s, sub, i);
        if i > 0 {
          assert rest[i - 1..i - 1 + |sub|] == s[i..i + |sub|];
          assert OccursAt(rest, sub, i - 1);
        }
      }
    } else if exists i :: OccursAt(s, sub, i) {
      var i :| OccursAt(s, sub, i);
      assert i == 0 && |sub| == 0;
    }
  }

  /** Code-point (lexicographic) order on strings, the order used for dates. */
  predicate LessEq(a: string, b: string)
    decreases |a|
  {
    |a| == 0 || (|b| > 0 && (a[0] < b[0] || (a[0] == b[0] && LessEq(a[1..], b[1..]))))
  }

  lemma {:induction false} LessEqTotal(a: string, b: string)
    ensures LessEq(a, b) || LessEq(b, a)
    decreases |a|
  {
    if |a| > 0 && |b| > 0 && a[0] == b[0] {
      LessEqTotal(a[1..], b[1..]);
    }
  }

  lemma {:induction false} LessEqTransitive(a: string, b: string, c: string)
    requires LessEq(a, b) && LessEq(b, c)
    ensures LessEq(a, c)
    decreases |a|
  {
    if |a| > 0 && a[0] == b[0] && b[0] == c[0] {
      LessEqTransitive(a[1..], b[1..], c[1..]);
    }
  }

  lemma {:induction false} LessEqAntisymmetric(a: string, b: string)
    requires LessEq(a, b) && LessEq(b, a)
    ensures a == b
    decreases |a|
  {
    if |a| > 0 {
      LessEqAntisymmetric(a[1..], b[1..]);
      assert a == [a[0]] + a[1..] && b == [b[0]] + b[1..];
    }
  }
}

=== FILE: tableview.dfy ===
/** The rows the transaction table shows: the ledger sorted by date string
    (a stable sort) and then filtered by the lower-cased search text. */
module TableView {
  import opened Strings
  import opened Ledger

  /** Every pair of rows is in date order. */
  predicate SortedByDate(s: seq<Transaction>) {
    forall i, j :: 0 <= i < j < |s| ==> LessEq(s[i].date, s[j].date)
  }

  /** The rows that carry date `d`, in the order `s` holds them. */
  function WithDate(s: seq<Transaction>, d: string): (r: seq<Transaction>)
    ensures |r| <= |s|
  {
    if |s| == 0 then []
    else (if s[0].date == d then [s[0]] else []) + WithDate(s[1..], d)
  }

  /** Places `t` before the first row whose date is not earlier than its own,
      hence before every row of the same date. */
  function Insert(t: Transaction, s: seq<Transaction>): (r: seq<Transaction>)
    ensures multiset(r) == multiset(s) + multiset{t}
    ensures |r| == |s| + 1
  {
    if |s| == 0 || LessEq(t.date, s[0].date) then [t] + s
    else
      assert s == [s[0]] + s[1..];
      [s[0]] + Insert(t, s[1..])
  }

  /** `transactions.slice().sort((a, b) => (a.date || '').localeCompare(b.date))`,
      an insertion sort: the comparator's order with equal dates kept in
      ledger order, as `Array.prototype.sort` guarantees. */
  function SortByDate(s: seq<Transaction>): (r: seq<Transaction>)
    ensures multiset(r) == multiset(s)
    ensures |r| == |s|
  {
    if |s| == 0 then []
    else
      assert s == [s[0]] + s[1..];
      Insert(s[0], SortByDate(s[1..]))
  }

  lemma {:induction false} InsertKeepsSorted(t: Transaction, s: seq<Transaction>)
    requires SortedByDate(s)
    ensures SortedByDate(Insert(t, s))
  {
    if |s| > 0 && !LessEq(t.date, s[0].date) {
      InsertKeepsSorted(t, s[1..]);
      var r := Insert(t, s[1..]);
      LessEqTotal(t.date, s[0].date);
      forall j | 0 <= j < |r|
        ensures LessEq(s[0].date, r[j].date)
      {
        assert r[j] in multiset(r);
        if r[j] != t {
          assert r[j] in multiset(s[1..]);
          var k :| 0 <= k < |s[1..]| && s[1..][k] == r[j];
          assert s[k + 1] == r[j];
        }
      }
    } else if |s| > 0 {
      forall j | 0 < j < |s|
        ensures LessEq(t.date, s[j].date)
      {
        LessEqTransitive(t.date, s[0].date, s[j].date);
      }
    }
  }

  /** The table's rows are in date order and are exactly the ledger's rows. */
  lemma {:induction false} SortIsSorted(s: seq<Transaction>)
    ensures SortedByDate(SortByDate(s))
  {
    if |s| > 0 {
      SortIsSorted(s[1..]);
      InsertKeepsSorted(s[0], SortByDate(s[1..]));
    }
  }

  lemma {:induction false} WithDateAppend(a: seq<Transaction>, b: seq<Transaction>, d: string)
    ensures WithDate(a + b, d) == WithDate(a, d) + WithDate(b, d)
  {
    if |a| == 0 {
      assert a + b == b;
    } else {
      var h := if a[0].date == d then [a[0]] else [];
      assert (a + b)[0] == a[0];
      assert (a + b)[1..] == a[1..] + b;
      WithDateAppend(a[1..], b, d);
      assert WithDate(a + b, d) == h + (WithDate(a[1..], d) + WithDate(b, d));
      assert WithDate(a, d) == h + WithDate(a[1..], d);
    }
  }

  lemma WithDateSingle(t: Transaction, d: string)
    ensures WithDate([t], d) == if t.date == d then [t] else []
  {
    assert [t][1..] == [];
  }

  /** Rows before the insertion point have strictly earlier dates, so
      inserting `t` puts it first among the rows of its own date. */
  lemma {:induction false} InsertWithDate(t: Transaction, s: seq<Transaction>, d: string)
    ensures WithDate(Insert(t, s), d) == (if t.date == d then [t] else []) + WithDate(s, d)
  {
    if |s| == 0 || LessEq(t.date, s[0].date) {
      WithDateAppend([t], s, d);
      WithDateSingle(t, d);
    } else {
      var x := s[0];
      var mid := Insert(t, s[1..]);
      assert Insert(t, s) == [x] + mid;
      if x.date == t.date {
        LessEqTotal(t.date, t.date);
      }
      InsertWithDate(t, s[1..], d);
      WithDateAppend([x], mid, d);
      WithDateAppend([x], s[1..], d);
      WithDateSingle(x, d);
      assert s == [x] + s[1..];
      assert x.date == d ==> t.date != d;
    }
  }

  /** Stability: the rows of any one date keep their ledger order. */
  lemma {:induction false} SortIsStable(s: seq<Transaction>, d: string)
    ensures WithDate(SortByDate(s), d) == WithDate(s, d)
  {
    if |s| > 0 {
      SortIsStable(s[1..], d);
      InsertWithDate(s[0], SortByDate(s[1..]), d);
    }
  }

  // ---------------------------------------------------------------------
  // Search

  /** `[t.itemName, t.notes, t.type].some(v => (v || '').toLowerCase().includes(query))`,
      with `query` already lower-cased; an empty query shows every row. */
  predicate Matches(t: Transaction, query: string) {
    query == ""
    || Contains(LowerString(t.itemName), query)
    || Contains(LowerString(t.notes), query)
    || Contains(LowerString(t.kind), query)
  }

  function Select(s: seq<Transaction>, query: string): (r: seq<Transaction>)
    ensures |r| <= |s|
    ensures forall i :: 0 <= i < |r| ==> Matches(r[i], query)
    ensures forall t :: t in r <==> t in s && Matches(t, query)
  {
    if |s| == 0 then []
    else
      assert s == [s[0]] + s[1..];
      (if Matches(s[0], query) then [s[0]] else []) + Select(s[1..], query)
  }

  /** `filter` keeps order and multiplicity: selecting from a concatenation
      is selecting from each part. */
  lemma {:induction false} SelectAppend(a: seq<Transaction>, b: seq<Transaction>, query: string)
    ensures Select(a + b, query) == Select(a, query) + Select(b, query)
  {
    if |a| == 0 {
      assert a + b == b;
    } else {
      assert (a + b)[0] == a[0];
      assert (a + b)[1..] == a[1..] + b;
      SelectAppend(a[1..], b, query);
    }
  }

  /** Filtering and picking out one date commute. */
  lemma {:induction false} WithDateSelect(s: seq<Transaction>, query: string, d: string)
    ensures WithDate(Select(s, query), d) == Select(WithDate(s, d), query)
  {
    if |s| > 0 {
      var h := [s[0]];
      assert s == h + s[1..];
      WithDateSelect(s[1..], query, d);
      SelectAppend(h, s[1..], query);
      WithDateAppend(h, s[1..], d);
      WithDateSingle(s[0], d);
      WithDateAppend(Select(h, query), Select(s[1..], query), d);
      SelectAppend(WithDate(h, d), WithDate(s[1..], d), query);
      assert h[1..] == [];
    }
  }

  /** The rows shown for the search box's text: in date order, exactly the
      ledger's rows that match the lowered search, and for each date the
      matching rows of that date, every one of them, in ledger order. */
  function View(s: seq<Transaction>, search: string): (r: seq<Transaction>)
    ensures SortedByDate(r)
    ensures |r| <= |s|
    ensures forall t :: t in r <==> t in s && Matches(t, LowerString(search))
    ensures forall d :: WithDate(r, d) == Select(WithDate(s, d), LowerString(search))
  {
    var sorted := SortByDate(s);
    SortIsSorted(s);
    SelectKeepsSorted(sorted, LowerString(search));
    forall d
      ensures WithDate(Select(sorted, LowerString(search)), d)
              == Select(WithDate(s, d), LowerString(search))
    {
      WithDateSelect(sorted, LowerString(search), d);
      SortIsStable(s, d);
    }
    assert forall t :: t in sorted <==> t in multiset(sorted);
    assert forall t :: t in s <==> t in multiset(s);
    Select(sorted, LowerString(search))
  }

  lemma {:induction false} SelectKeepsSorted(s: seq<Transaction>, query: string)
    requires SortedByDate(s)
    ensures SortedByDate(Select(s, query))
  {
    if |s| > 0 {
      SelectKeepsSorted(s[1..], query);
      var rest := Select(s[1..], query);
      forall j | 0 <= j < |rest|
        ensures LessEq(s[0].date, rest[j].date)
      {
        assert rest[j] in rest;
        var k :| 0 <= k < |s[1..]| && s[1..][k] == rest[j];
        assert s[k + 1] == rest[j];
      }
    }
  }

  lemma {:induction false} SelectEverything(s: seq<Transaction>)
    ensures Select(s, "") == s
  {
    if |s| > 0 {
      SelectEverything(s[1..]);
      assert s == [s[0]] + s[1..];
    }
  }

  lemma {:induction false} LowerTwice(s: string)
    ensures LowerString(LowerString(s)) == LowerString(s)
  {
  }

  /** An empty search shows the whole ledger in date order. */
  lemma EmptySearchShowsAll(s: seq<Transaction>)
    ensures View(s, "") == SortByDate(s)
  {
    SelectEverything(SortByDate(s));
  }

  /** The search is case-insensitive: typing in capitals shows the same rows. */
  lemma SearchIgnoresCase(s: seq<Transaction>, search: string)
    ensures View(s, LowerString(search)) == View(s, search)
  {
    LowerTwice(search);
  }
}

=== FILE: users.dfy ===
/** The server's user records: the record created or refreshed at login,
    `saveUser`, the `/api/user/data` routes and the `/auth/user` projection.
    The users file is a map from Steam ID to record; `now` is the clock
    reading the handler takes. */
module Users {
  import opened Wrappers
  import opened Json
  import opened Strings
  import opened SteamId

  type Record = Json.Object
  type Store = map<string, Record>

  /** What the Steam profile supplies; an empty string is a missing field.
      `photos` are the photo URLs in profile order. */
  datatype Profile = Profile(displayName: string, username: string, photos: seq<string>)

  /** `profile.photos?.[2]?.value || ''`. */
  function Photo(p: Profile): string {
    if |p.photos| > 2 then p.photos[2] else ""
  }

  /** `profile.displayName || profile.username`, when either is non-empty. */
  function ProfileName(p: Profile): Option<string> {
    if p.displayName != "" then Some(p.displayName)
    else if p.username != "" then Some(p.username)
    else None
  }

  /** The record holds `v` under `k`. */
  predicate Has(rec: Record, k: string, v: Value) {
    k in rec && rec[k] == v
  }

  const DefaultRates: Record := map["USD" := Num(1.0), "AUD" := Num(1.0), "EUR" := Num(1.0)]

  /** The record of a first login. */
  function NewUser(steamId: string, p: Profile, now: string): (r: Record)
    ensures r.Keys == {"steamId", "username", "avatar", "baseCurrency", "displayCurrency", "rates", "transactions", "createdAt"}
    ensures r["steamId"] == Str(steamId)
    ensures r["baseCurrency"] == r["displayCurrency"] == Str("USD")
    ensures r["rates"] == Obj(DefaultRates) && r["transactions"] == Arr([])
    ensures r["username"] == Str(ProfileName(p).GetOr("User_" + steamId))
    ensures r["avatar"] == Str(Photo(p))
  {
    map[
      "steamId" := Str(steamId),
      "username" := Str(ProfileName(p).GetOr("User_" + steamId)),
      "avatar" := Str(Photo(p)),
      "baseCurrency" := Str("USD"),
      "displayCurrency" := Str("USD"),
      "rates" := Obj(DefaultRates),
      "transactions" := Arr([]),
      "createdAt" := Str(now)]
  }

  /** A returning user's record with only the name and avatar refreshed from
      the profile; a field the profile leaves empty keeps the stored value. */
  function RefreshProfile(user: Record, p: Profile): (r: Record)
    ensures r.Keys == user.Keys + (if ProfileName(p).Some? then {"username"} else {})
      + (if Photo(p) != "" then {"avatar"} else {})
    ensures forall k :: k in user && k != "username" && k != "avatar" ==> r[k] == user[k]
    ensures ProfileName(p).Some? ==> r["username"] == Str(ProfileName(p).value)
    ensures Photo(p) != "" ==> r["avatar"] == Str(Photo(p))
    ensures ProfileName(p).None? && "username" in user ==> r["username"] == user["username"]
    ensures Photo(p) == "" && "avatar" in user ==> r["avatar"] == user["avatar"]
  {
    var named := if ProfileName(p).Some? then user["username" := Str(ProfileName(p).value)] else user;
    if Photo(p) != "" then named["avatar" := Str(Photo(p))] else named
  }

  /** `saveUser`: the data with `steamId` and `updatedAt` written over it,
      stored under the Steam ID; every other user is untouched. */
  function SaveUser(store: Store, steamId: string, data: Record, now: string): (r: (Store, Record))
    ensures r.1.Keys == data.Keys + {"steamId", "updatedAt"}
    ensures r.1["steamId"] == Str(steamId) && r.1["updatedAt"] == Str(now)
    ensures forall k :: k in data && k != "steamId" && k != "updatedAt" ==> r.1[k] == data[k]
    ensures r.0.Keys == store.Keys + {steamId} && r.0[steamId] == r.1
    ensures forall id :: id in store && id != steamId ==> r.0[id] == store[id]
  {
    var saved := data + map["steamId" := Str(steamId), "updatedAt" := Str(now)];
    (store[steamId := saved], saved)
  }

  /** The record saved when the account `id` signs in: a new user's
      defaults, or the stored record with its name and avatar refreshed. */
  function SignIn(store: Store, id: string, p: Profile, now: string): (r: (Store, Record))
    ensures r.0 == store[id := r.1] && Has(r.1, "steamId", Str(id)) && Has(r.1, "updatedAt", Str(now))
    ensures id !in store ==>
      Has(r.1, "baseCurrency", Str("USD")) && Has(r.1, "displayCurrency", Str("USD"))
      && Has(r.1, "rates", Obj(DefaultRates)) && Has(r.1, "transactions", Arr([]))
    ensures id in store ==>
      forall k :: k in store[id] && k !in {"username", "avatar", "steamId", "updatedAt"} ==> Has(r.1, k, store[id][k])
    ensures ProfileName(p).Some? ==> Has(r.1, "username", Str(ProfileName(p).value))
    ensures Photo(p) != "" ==> Has(r.1, "avatar", Str(Photo(p)))
    ensures id !in store ==>
      Has(r.1, "username", Str(ProfileName(p).GetOr("User_" + id))) && Has(r.1, "avatar", Str(Photo(p)))
    ensures id in store && ProfileName(p).None? && "username" in store[id] ==>
      Has(r.1, "username", store[id]["username"])
    ensures id in store && Photo(p) == "" && "avatar" in store[id] ==>
      Has(r.1, "avatar", store[id]["avatar"])
  {
    var user := if id in store then RefreshProfile(store[id], p) else NewUser(id, p, now);
    SaveUser(store, id, user, now)
  }

  /** The Steam strategy callback: reject an identifier that is not a Steam
      ID64, otherwise sign the account in. */
  function Login(store: Store, identifier: string, p: Profile, now: string): (r: Result<(Store, Record), LoginError>)
    ensures r.Err? <==> !IsSteamId64(LastSegment(identifier))
    ensures r.Ok? ==> Has(r.value.1, "steamId", Str(LastSegment(identifier)))
    ensures r.Ok? ==> r.value == SignIn(store, LastSegment(identifier), p, now)
  {
    match LoginSteamId(identifier)
    case Err(e) => Err(e)
    case Ok(id) => Ok(SignIn(store, id, p, now))
  }

  /** A record that already shows the profile's name and avatar is left as
      it is by the refresh. */
  lemma RefreshKeepsCurrent(user: Record, p: Profile)
    requires ProfileName(p).Some? ==> Has(user, "username", Str(ProfileName(p).value))
    requires Photo(p) != "" ==> Has(user, "avatar", Str(Photo(p)))
    ensures RefreshProfile(user, p) == user
  {
    assert RefreshProfile(user, p).Keys == user.Keys;
  }

  /** Saving a record that already carries its ID and timestamp stores it
      as it is. */
  lemma SaveKeepsStamped(store: Store, id: string, rec: Record, now: string)
    requires Has(rec, "steamId", Str(id)) && Has(rec, "updatedAt", Str(now))
    ensures SaveUser(store, id, rec, now) == (store[id := rec], rec)
  {
    var saved := rec + map["steamId" := Str(id), "updatedAt" := Str(now)];
    assert saved.Keys == rec.Keys;
    assert forall k :: k in rec ==> saved[k] == rec[k];
    assert saved == rec;
  }

  /** A stored record that already shows the profile and the moment is
      left unchanged by signing in. */
  lemma SignInKeepsCurrent(store: Store, id: string, p: Profile, now: string)
    requires id in store
    requires Has(store[id], "steamId", Str(id)) && Has(store[id], "updatedAt", Str(now))
    requires ProfileName(p).Some? ==> Has(store[id], "username", Str(ProfileName(p).value))
    requires Photo(p) != "" ==> Has(store[id], "avatar", Str(Photo(p)))
    ensures SignIn(store, id, p, now) == (store, store[id])
  {
    RefreshKeepsCurrent(store[id], p);
    SaveKeepsStamped(store, id, store[id], now);
    assert store[id := store[id]] == store;
  }

  /** Signing in again with the same profile at the same moment changes
      nothing: the refresh and the save are idempotent. */
  lemma SignInTwice(store: Store, id: string, p: Profile, now: string)
    ensures var (s1, rec) := SignIn(store, id, p, now);
      SignIn(s1, id, p, now) == (s1, rec)
  {
    var (s1, rec) := SignIn(store, id, p, now);
    SignInKeepsCurrent(s1, id, p, now);
  }

  lemma LoginTwice(store: Store, identifier: string, p: Profile, now: string)
    requires Login(store, identifier, p, now).Ok?
    ensures Login(Login(store, identifier, p, now).value.0, identifier, p, now) == Login(store, identifier, p, now)
  {
    SignInTwice(store, LoginSteamId(identifier).value, p, now);
  }

  // ---------------------------------------------------------------------
  // API routes

  datatype ApiError = NotAuthenticated | UserNotFound

  /** HTTP status of each error response. */
  function Status(e: ApiError): int {
    match e
    case NotAuthenticated => 401
    case UserNotFound => 404
  }

  /** `GET /api/user/data` for the session's Steam ID, if signed in. */
  function GetUserData(store: Store, session: Option<string>): (r: Result<Record, ApiError>)
    ensures session.None? <==> r == Err(NotAuthenticated)
    ensures r.Ok? <==> session.Some? && session.value in store
    ensures r.Ok? ==> r.value == store[session.value]
  {
    match session
    case None => Err(NotAuthenticated)
    case Some(sid) => if sid in store then Ok(store[sid]) else Err(UserNotFound)
  }

  /** `POST /api/user/data`: the stored record overridden field by field by
      the client's `userData`, then `steamId` and `updatedAt` forced. A
      missing or `null` `userData` is the empty object. */
  function PostUserData(store: Store, session: Option<string>, userData: Record, now: string): (r: Result<(Store, Record), ApiError>)
    ensures session.None? <==> r == Err(NotAuthenticated)
    ensures r.Ok? <==> session.Some? && session.value in store
    ensures r.Ok? ==> var sid := session.value; var rec := r.value.1;
      && Has(rec, "steamId", Str(sid))
      && Has(rec, "updatedAt", Str(now))
      && rec.Keys == store[sid].Keys + userData.Keys + {"steamId", "updatedAt"}
      && (forall k :: k in rec && k != "steamId" && k != "updatedAt" ==>
            rec[k] == if k in userData then userData[k] else store[sid][k])
      && r.value.0 == store[sid := rec]
  {
    match session
    case None => Err(NotAuthenticated)
    case Some(sid) =>
      if sid !in store then Err(UserNotFound)
      else
        var updated := store[sid] + userData + map["steamId" := Str(sid), "updatedAt" := Str(now)];
        var saved := SaveUser(store, sid, updated, now);
        assert saved.1 == updated;
        Ok((saved.0, updated))
  }

  /** Whatever the client sends, including a `steamId` of another account,
      only the session's own record changes and it keeps the session's ID. */
  lemma PostCannotTakeOverAnotherUser(store: Store, sid: string, userData: Record, now: string, other: string)
    requires sid in store && other != sid
    ensures var r := PostUserData(store, Some(sid), userData, now).value;
      r.1["steamId"] == Str(sid) && (other in r.0 <==> other in store)
      && (other in store ==> r.0[other] == store[other])
  {
  }

  /** Posting back the record the GET route returned changes nothing but
      the timestamp of a record already saved under its own ID. */
  lemma PostWhatWasReadKeepsRecord(store: Store, sid: string, now: string)
    requires sid in store && "steamId" in store[sid] && store[sid]["steamId"] == Str(sid)
    requires "updatedAt" in store[sid]
    ensures var rec := PostUserData(store, Some(sid), GetUserData(store, Some(sid)).value, now).value.1;
      rec == store[sid]["updatedAt" := Str(now)]
  {
    var rec := PostUserData(store, Some(sid), store[sid], now).value.1;
    assert rec.Keys == store[sid].Keys;
  }

  // ---------------------------------------------------------------------
  // /auth/user

  datatype AuthView = AuthView(user: Option<Record>, authenticated: bool)

  /** `/auth/user`: the signed-in user's record without `transactions`. */
  function AuthUser(session: Option<Record>): (r: AuthView)
    ensures r.authenticated <==> session.Some?
    ensures r.user.Some? <==> session.Some?
    ensures r.user.Some? ==> r.user.value.Keys == session.value.Keys - {"transactions"}
    ensures r.user.Some? ==> forall k :: k in r.user.value ==> r.user.value[k] == session.value[k]
  {
    match session
    case None => AuthView(None, false)
    case Some(user) => AuthView(Some(user - {"transactions"}), true)
  }

  /** The projection drops exactly the transactions: putting them back
      restores the stored record. */
  lemma AuthUserDropsOnlyTransactions(user: Record)
    ensures var shown := AuthUser(Some(user)).user.value;
      "transactions" !in shown
      && user == shown + (if "transactions" in user then map["transactions" := user["transactions"]] else map[])
  {
    var shown := AuthUser(Some(user)).user.value;
    var back := shown + (if "transactions" in user then map["transactions" := user["transactions"]] else map[]);
    assert back.Keys == user.Keys;
  }
}

=== FILE: wrappers.dfy ===
/** Option and Result, the two failure-carrying shapes the model uses for the
    source's `null`/`undefined` values and its error responses. */
module Wrappers {

  /** `None` stands for JavaScript's `null` or a missing property. */
  datatype Option<+T> = None | Some(value: T) {

    /** The value, or `default` when there is none (the `x ?? d` idiom). */
    function GetOr(default: T): T {
      match this
      case Some(v) => v
      case None => default
    }
  }

  /** `Err` stands for a thrown error or an HTTP error response. */
  datatype Result<+T, +E> = Ok(value: T) | Err(error: E)
}
